=== FILE: README.md ===
# AI image recognition service — a Dafny model of its core

This project models the record-keeping core of a small image-recognition web
service. It is written in Dafny. The service has two parts:

- An Express/SQLite backend (`backend/server.js`). It stores every upload in
  `images`. It auto-saves the analysis of a signed-in user's upload to
  `user_analyses`, but skips the save when the same stored file was saved in
  the last five minutes. It also serves:
  - the user's history, paged, searched and filtered by type
  - bulk delete
  - per-user statistics
  - a public search
  - register and login
- Two React components:
  - The public gallery (`DiscoverGallery.tsx`) turns search results into cards
    and guesses each card's type from its object names.
  - The history page (`UserHistory.tsx`) keeps a selection, a detail view with
    previous/next navigation and a pagination bar.

The model consists of pure functions over immutable datatypes:

- The tables are sequences of rows in insertion order, together with their
  AUTOINCREMENT counter.
- The clock is an explicit `now` parameter, in milliseconds.
- The vision service's result, the uploaded file and the session token's
  claim are inputs.
- SQL `LIKE '%x%'` is ASCII-case-insensitive substring search
  (`Text.LikeContains`).
- `JSON.stringify` of the stored columns is spelled out (`Archive.AnalysisJson`,
  `Archive.ImageInfoJson`, `Text.JsonStringArray`). This is needed because the
  duplicate check, the history search and the type filter all match text
  inside that serialised form.

Modules:

| module | file | models |
|---|---|---|
| `Wrappers` | wrappers.dfy | `Option`, `Result` |
| `Text` | text.dfy | `includes`, `LIKE`, ASCII lower-casing, JSON string escaping, `join`, truncation |
| `Seqs` | seqs.dfy | filter, count, subsequence, newest-first sort |
| `Paths` | paths.dfy | the `/uploads/` and `/uploads/thumb-` URLs |
| `Archive` | archive.dfy | `user_analyses`: auto-save, explicit save, bulk delete |
| `History` | history.dfy | `GET /api/user/history` |
| `AnalysisKinds` | kinds.dfy | the seven analysis types and "first rule that fires wins" |
| `AzureType` | azure.dfy | the server's type classifier |
| `Statistics` | statistics.dfy | `GET /api/user/statistics` |
| `ImageSearch` | search.dfy | `images` and `GET /api/search` |
| `Auth` | auth.dfy | register and login validation |
| `Upload` | upload.dfy | `POST /api/analyze` |
| `Gallery` | gallery.dfy | the public gallery's cards, classifier and filter |
| `HistoryView` | historyview.dfy | the history page's client state |

Two consequences of the code are worth stating up front:

- **Re-uploads.** The duplicate check matches the *stored* file name, and the
  upload handler generates that name afresh from the clock and a random number
  for every upload. So re-uploading the same picture is saved again
  (`Upload.ReuploadIsSavedAgain`); only a retried save of the same stored file
  is suppressed (`Archive.SavedRowBlocksWithinWindow`).
- **`autoSaved`.** The response's `autoSaved` flag means "a session was
  present" (`Upload.Analyze`), not "a row was written".

## Model

| member | source | states |
|---|---|---|
| Paths.StoredNameOfThumbnail | backend/server.js:236-237 | a thumbnail URL gives back the stored name it was built from, and is rejected exactly when it does not start with `/uploads/thumb-` |
| Paths.ThumbnailRoundTrip | backend/server.js:236-237 | building a thumbnail URL from a stored name and reading it back returns that name |
| Paths.ThumbnailIsUpload | backend/server.js:215-218 | the thumbnail URL is the served path of the `thumb-` file written next to the upload |
| Archive.Insert | backend/server.js:287-295 | an insert appends one row with an id no existing row has; the earlier rows are untouched; positive, distinct ids below the counter stay so |
| Archive.AnalysisJson | backend/server.js:290 | the `analysis_data` text is `JSON.stringify` of the analysis: objects, text, faces, then the `analysisType` member, with strings escaped |
| Archive.ImageInfoJson | backend/server.js:290 | the `image_info` text is `JSON.stringify` of the image info: original name, stored name, size, thumbnail and full-image URLs, with strings escaped |
| Archive.FirstDuplicate | backend/server.js:273-277 | the duplicate query finds the first row of the same user that mentions the stored name and is less than five minutes old; it finds none exactly when no row qualifies |
| Archive.HasRecentDuplicate | backend/server.js:273-283 | the auto-save is skipped exactly when the duplicate query finds a row |
| Archive.AutoSave | backend/server.js:268-299 | auto-save skips exactly when a recent duplicate exists, and then leaves the table unchanged; otherwise it appends one row stamped now with the given analysis, image info and a fresh id |
| Archive.ImageInfoMentionsStoredName | backend/server.js:275-290 | a saved row's serialised image info contains its own stored name, so the duplicate query can find it |
| Archive.SavedRowBlocksWithinWindow | backend/server.js:271-283 | once a file is saved, every auto-save of the same stored name by the same user within five minutes is skipped, while that row exists |
| Archive.SavesApartBothInsert | backend/server.js:271-295 | two auto-saves of the same file at least five minutes apart both insert |
| Archive.OnlyOwnRecentRowsBlock | backend/server.js:273-277 | rows of other users, and rows older than five minutes, never change the duplicate decision |
| Archive.RecentDuplicateIgnoresExtra | backend/server.js:273-277 | the duplicate query finds a row exactly when it would without the added rows of other users or older than five minutes |
| Archive.AutoSaveKeepsSpaced | backend/server.js:268-299 | auto-save keeps "same user, same file: rows saved at least five minutes apart" for the saved file and for every name the new row does not mention |
| Archive.SaveAnalysis | backend/server.js:343-354 | the explicit save always appends one row for the caller with a fresh id |
| Archive.ManualSaveIgnoresWindow | backend/server.js:343-354 | where auto-save would skip a recent duplicate, the explicit save still inserts |
| Archive.BulkDelete | backend/server.js:448-472 | a missing or empty id list is refused; otherwise exactly the caller's listed rows disappear, the rest keep their order, and the reported count is the number removed |
| Archive.BulkDeleteKeepsValid | backend/server.js:455-460 | deleting keeps ids positive, distinct and below the counter |
| Archive.BulkDeleteKeepsSpaced | backend/server.js:455-460 | deleting keeps the five-minute spacing of saves of one file |
| Archive.BulkDeleteSparesOthers | backend/server.js:455-458 | another user's row, or the caller's unlisted row, always survives |
| Archive.BulkDeleteCountBound | backend/server.js:466-470 | `deletedCount` never exceeds the number of ids sent |
| History.CeilDiv | backend/server.js:440 | the page count is the least number of `limit`-sized pages holding all rows |
| History.MatchesSearch | backend/server.js:370-376 | the search keeps a row when the text is empty or either JSON column contains it, ignoring ASCII case; a NULL column never matches |
| History.MatchesType | backend/server.js:379-385 | the type filter keeps a row when no type is asked for or its analysis text contains `"analysisType":"<type>"` with the type inserted unescaped |
| Seqs.SortDesc | backend/server.js:387 | `ORDER BY saved_at DESC` yields the same rows, each as often, newest first |
| History.Window | backend/server.js:387-388 | `LIMIT`/`OFFSET` keeps at most `limit` rows, namely those starting at the offset |
| History.PageRows | backend/server.js:387-425 | a page holds at most `limit` rows, all from the ordered result and with a parsable analysis, still newest first |
| History.GetHistory | backend/server.js:357-445 | absent page and limit default to 1 and 20; every row shown is the caller's, passes both filters and parses; rows are newest first; at most `limit` are shown; `total` counts every matching row |
| History.PageCountCoversTotal | backend/server.js:436-441 | `totalPages` pages of `limit` rows hold all `total` rows and one page fewer would not; it is 0 when nothing matches |
| History.TotalIndependentOfPage | backend/server.js:364-385 | `total` and `totalPages` do not depend on the page requested |
| History.PageIsSlice | backend/server.js:358-388 | when every row parses, a page is exactly the `(page-1)*limit` window of the newest-first matching rows, and `total` is their number |
| History.PageOfRow | backend/server.js:360 | row k belongs to page `k / limit + 1` |
| History.RowOnItsPage | backend/server.js:387-388 | paging loses no parsable row: the k-th matching row, when its analysis parses, appears on the page whose window covers k (a row saved without an analysis is dropped from its page) |
| History.TypeFilterFindsType | backend/server.js:379-385 | the type filter keeps every row whose analysis has that type, for type names `JSON.stringify` writes verbatim |
| History.SearchFindsFileName | backend/server.js:370-376 | the search keeps every row whose original file name contains the text, ignoring ASCII case |
| History.SearchFindsObject | backend/server.js:370-376 | the search keeps every row one of whose detected objects contains the text |
| AnalysisKinds.RankedDistinct | frontend/src/components/DiscoverGallery.tsx:108-117 | the six ranked types are distinct and are neither `general` nor `all` |
| AnalysisKinds.FirstFiringPicks | backend/server.js:171-178 | trying the rules in the fixed order answers the first type whose rule fires, else general |
| AnalysisKinds.FirstFiringUnique | backend/server.js:171-178 | "the first rule that fires wins" determines a single answer |
| AnalysisKinds.FirstFiringIsType | frontend/src/components/DiscoverGallery.tsx:108-117 | every first-match answer is one of the seven types the gallery offers |
| AzureType.TypeFromAzure | backend/server.js:167-179 | the stored type is the first of portrait, landscape, urban, food, animal, document whose rule fires, else general |
| AzureType.RuleChain | backend/server.js:171-178 | the six tests in source order: a `people_` category, then exact tag matches for each type's list, else general |
| AzureType.RuleChainFirstFiring | backend/server.js:171-178 | the source's chain of `some`/`includes` tests is the first-match rule over the keyword and tag lists |
| AzureType.PeopleCategoryWins | backend/server.js:171 | a category name containing `people_` makes a portrait whatever the tags are |
| AzureType.NothingDetectedIsGeneral | backend/server.js:167-179 | a result without categories or tags is general |
| AzureType.TagsMatchExactly | backend/server.js:172-176 | tags must equal a keyword: `skyscraper` fires no rule |
| Statistics.EffectiveType | backend/server.js:541 | a missing or empty type counts as `general`; any other type counts as itself |
| Statistics.Tally | backend/server.js:537-546 | the type map has a key exactly for each type with a parsable row of the caller, and its value is that type's row count |
| Statistics.GetStatistics | backend/server.js:519-557 | total and recent counts are the caller's rows overall and in the last seven days (recent never exceeds total); the map is as in `Tally` |
| Statistics.NoEmptyTypeKey | backend/server.js:541-542 | the empty type never appears as a key |
| Statistics.TypeCountBound | backend/server.js:521-546 | no type counts more rows than the caller's total |
| Statistics.SaveBumpsItsType | backend/server.js:537-546 | saving an analysis raises its type's count by exactly one |
| ImageSearch.AddImage | backend/server.js:223-228 | an upload appends one `images` row holding the name, date, detections, stored name and owner; earlier rows are untouched; the new id is unused, and positive, distinct ids below the counter stay so |
| ImageSearch.Search | backend/server.js:573-598 | a missing query is an error; otherwise the query is echoed in lower case, the count is the number of results, each result is a row that passes both the SQL prefilter and the post-filter, every row passing both is returned, and the results keep table order |
| ImageSearch.MentionImpliesColumns | backend/server.js:576-593 | a row the post-filter accepts also passes the SQL prefilter, for queries `JSON.stringify` writes verbatim |
| ImageSearch.SearchFindsEveryMention | backend/server.js:573-598 | for such queries the results are exactly the rows, in table order, with an object or text line containing the query, ignoring ASCII case |
| ImageSearch.EmptyQueryListsDetections | backend/server.js:573-598 | the empty query returns exactly the rows with at least one object or text line |
| Auth.Register | backend/server.js:303-324 | each error occurs exactly under its condition (missing field, password shorter than 6, email or username taken); success appends the user with the next id, returns that user's session, and keeps emails, usernames and ids unique |
| Auth.FindByEmail | backend/server.js:330 | the lookup finds the first user with the email, or none exactly when no user has it |
| Auth.Login | backend/server.js:326-340 | a missing field is an error; success means a user with that email and password exists and the session is theirs; an unknown email gives "Invalid credentials" |
| Auth.LoginHidesRegisteredEmails | backend/server.js:332-335 | a wrong password for a registered email gets the same answer as an unknown email |
| Auth.LoginAcceptsRegisteredPassword | backend/server.js:330-338 | a user's own password logs that user in |
| Auth.RegisterThenLogin | backend/server.js:303-340 | logging in with just-registered credentials yields the session the registration returned |
| Auth.RegisterTwiceRefused | backend/server.js:309-311 | a second registration reusing the email or the username is refused as existing |
| Upload.InfoOf | backend/server.js:232-237 | the image info keeps the file's names and size; its thumbnail URL reads back to the stored name; the full-image URL is `/uploads/` plus that name |
| Upload.Analyze | backend/server.js:199-264 | no file and processing failure are errors that change nothing; a success appends one `images` row for the file and owner; `autoSaved` means a session was present; the archive changes exactly when a signed-in upload has no recent duplicate, and then by one row for the caller |
| Upload.AnonymousUploadKeepsArchives | backend/server.js:203-231 | without a session no archive changes and `autoSaved` is false |
| Upload.ReuploadIsSavedAgain | backend/server.js:182-188 | re-uploading a picture under a freshly generated stored name is saved a second time, even within five minutes |
| Upload.ContainedNameIsSkipped | backend/server.js:273-283 | within five minutes, a new stored name that occurs inside an earlier saved name is wrongly taken for a duplicate and skipped; with the generated names (clock, random number, extension) this needs the earlier file's client-chosen extension to contain the new name, so it is not a common case |
| Gallery.FiresByKeyword | frontend/src/components/DiscoverGallery.tsx:61-66 | each type's rule fires exactly when the object string includes one of the listed keywords |
| Gallery.KeywordChain | frontend/src/components/DiscoverGallery.tsx:60-67 | the six `includes` tests on the object string in source order, else general |
| Gallery.KeywordChainFirstFiring | frontend/src/components/DiscoverGallery.tsx:60-67 | the chain of tests picks the first type whose keywords occur, else general |
| Gallery.GetAnalysisType | frontend/src/components/DiscoverGallery.tsx:57-68 | no objects gives general; otherwise the answer is the first type whose keywords occur in the joined, lower-cased object names; it is always one of the seven types |
| Gallery.PersonMakesPortrait | frontend/src/components/DiscoverGallery.tsx:60-61 | any object mentioning "person", in any ASCII case, makes the card a portrait |
| Gallery.ToPublic | frontend/src/components/DiscoverGallery.tsx:35-47 | a card keeps the result's id, name, path, detections, faces and date; its thumbnail URL reads back to the stored name; its type is what the keyword classifier gives for its objects |
| Gallery.Cards | frontend/src/components/DiscoverGallery.tsx:35-47 | there is one card per search result, in the server's order |
| Gallery.CardMatchesUploadResponse | frontend/src/components/DiscoverGallery.tsx:43-44 | a card's thumbnail and full-image URLs are the ones the upload response announced for that file |
| Gallery.FilteredAnalyses | frontend/src/components/DiscoverGallery.tsx:97-106 | the shown cards are exactly those matching search text and type, in their order; a type filter other than `all` shows only that type; no search and `all` shows every card |
| Gallery.SearchIgnoresCase | frontend/src/components/DiscoverGallery.tsx:98-101 | a query and its lower-case form show the same cards |
| Gallery.FileNameHitIsShown | frontend/src/components/DiscoverGallery.tsx:97-105 | a card of the selected type whose file name contains the text is shown |
| Gallery.ServerHitsPassClientFilter | frontend/src/components/DiscoverGallery.tsx:70-106 | after a gallery search, the client filter with type `all` shows every card the server returned for the same text |
| Gallery.CardTitle | frontend/src/components/DiscoverGallery.tsx:316-319 | names of at most 25 characters are shown whole; longer ones as their first 25 characters and "..." |
| HistoryView.ToggleSelect | frontend/src/components/UserHistory.tsx:65-72 | toggling flips whether the id is selected and no other id; a new id goes at the end; a selection without repeats stays so |
| HistoryView.ToggleTwiceRestores | frontend/src/components/UserHistory.tsx:65-72 | toggling an id twice restores the selected set, and the exact list when the id was not selected |
| HistoryView.FindIndex | frontend/src/components/UserHistory.tsx:85 | the index is that of the first row with the selected id, and -1 exactly when nothing is selected or the id is not on the page |
| HistoryView.HasPrevious | frontend/src/components/UserHistory.tsx:110 | Previous is enabled when the selected row is on the page after its first row |
| HistoryView.HasNext | frontend/src/components/UserHistory.tsx:111 | Next is enabled when the selected row is not the page's last row, including when it is not on the page at all |
| HistoryView.Position | frontend/src/components/UserHistory.tsx:152 | the position shown is 0 exactly when the selection is not on the page, otherwise it is the 1-based place of the selected row |
| HistoryView.ViewNext | frontend/src/components/UserHistory.tsx:84-89 | Next moves to the following row when there is one; from a selection not on the page it moves to the first row; otherwise nothing changes |
| HistoryView.ViewPrevious | frontend/src/components/UserHistory.tsx:91-96 | Previous moves to the preceding row when there is one, otherwise nothing changes |
| HistoryView.FindsItsPosition | frontend/src/components/UserHistory.tsx:109 | with distinct ids, a row is found at its own position |
| HistoryView.ButtonsEnabledIffTheyMove | frontend/src/components/UserHistory.tsx:108-111 | Next and Previous are enabled exactly when pressing them changes the selection |
| HistoryView.NextThenPreviousReturns | frontend/src/components/UserHistory.tsx:84-96 | Next followed by Previous returns to the starting row |
| HistoryView.NextWalksThePage | frontend/src/components/UserHistory.tsx:109-111 | the k-th row shows position k+1; Next is disabled exactly on the last row and Previous exactly on the first |
| HistoryView.Request | frontend/src/components/UserHistory.tsx:30 | a reload asks for the page and search text in the client state, twelve rows a page, with no type filter |
| HistoryView.Loaded | frontend/src/components/UserHistory.tsx:31-32 | a response replaces the rows, the page and the page count, and leaves the selection, detail view and search text alone |
| HistoryView.PageWithinRangeHasRows | backend/server.js:387-441 | when every row parses, a page between 1 and the page count of a non-empty result has rows |
| HistoryView.BulkDeleteView | frontend/src/components/UserHistory.tsx:46-63 | no selection or a cancelled confirmation does nothing and sends nothing; otherwise the selection is sent and the server accepts it; a failed request changes nothing; success deletes on the server, clears the selection, closes the detail view exactly when the viewed row was deleted, and reloads the same page and search text, on which no selected row appears |
| HistoryView.SentDeleteIsAccepted | frontend/src/components/UserHistory.tsx:47-51 | the server never refuses a delete the page sends, and every selected row of the caller is gone afterwards |
| HistoryView.DeleteCanStrandPage | frontend/src/components/UserHistory.tsx:51-53 | when a delete leaves fewer matching rows than the pages before the current one hold, the reload shows an empty list and no pagination bar on a page past the last, although rows remain |
| HistoryView.BulkDeleteViewClamped | frontend/src/components/UserHistory.tsx:46-63 | the corrected delete: the same table change, selection and detail view as the handler; only a page past the end is replaced by the last page |
| HistoryView.ClampedDeleteShowsRows | frontend/src/components/UserHistory.tsx:51-53 | with the corrected delete, while matching rows remain the page shown is within the page count and has rows |
| HistoryView.SubmitSearch | frontend/src/components/UserHistory.tsx:40-44 | a search moves the list to page 1 and changes nothing else |
| HistoryView.SearchRequests | frontend/src/components/UserHistory.tsx:21-44 | before any response arrives, a search has sent the old page with the typed text, then, unless it was on page 1, page 1 with the typed text; every request carries that text |
| HistoryView.SearchRestartsAtNewest | frontend/src/components/UserHistory.tsx:21-44 | of the requests sent before any response, the last returns the twelve newest matching rows; from page 1 it is the only one |
| HistoryView.FirstResponseRestoresPage | frontend/src/components/UserHistory.tsx:21-44 | from a page after the first, the response to the handler's own request of a search or a Clear puts the old page back |
| HistoryView.SearchRequestsFixed | frontend/src/components/UserHistory.tsx:40-44 | the corrected search: every request it sends is page 1 with the typed text |
| HistoryView.SearchFixedStaysOnFirstPage | frontend/src/components/UserHistory.tsx:21-44 | with the corrected search, every response leaves the client on page 1, so the effect does not request another page |
| HistoryView.SearchFixedSettlesOnFirstPage | frontend/src/components/UserHistory.tsx:40-44 | when every row of the user has a parsable analysis, every response to the corrected search shows page 1 with the twelve newest matching rows |
| HistoryView.ClearSearch | frontend/src/components/UserHistory.tsx:244-246 | Clear empties the search text, moves to page 1 and changes nothing else |
| HistoryView.ClearRequests | frontend/src/components/UserHistory.tsx:244-247 | before any response arrives, Clear has sent the old page with the OLD search text and, only when the page changed, page 1 without text |
| HistoryView.ClearOnFirstPageKeepsFilter | frontend/src/components/UserHistory.tsx:244-247 | on page 1 with a search active, Clear sends only the old search, so every row not matching it stays hidden while the box is empty |
| HistoryView.ClearRequestsFixed | frontend/src/components/UserHistory.tsx:244-247 | the corrected Clear: every request it leads to is page 1 without text |
| HistoryView.ClearShowsNewest | frontend/src/components/UserHistory.tsx:244-247 | with the corrected Clear, every response leaves the client on page 1; when every row of the user has a parsable analysis, the list, whichever response arrives last, is the caller's twelve newest rows, unfiltered |
| HistoryView.ShowPagination | frontend/src/components/UserHistory.tsx:264-354 | the bar is drawn only for a non-empty list with more than one page |
| HistoryView.PreviousDisabled | frontend/src/components/UserHistory.tsx:357 | Previous is disabled on page 1 |
| HistoryView.NextDisabled | frontend/src/components/UserHistory.tsx:370 | Next is disabled when the page equals the page count |
| HistoryView.ClickNext | frontend/src/components/UserHistory.tsx:369-371 | Next moves one page on, and stays exactly when its `page === totalPages` test disables it |
| HistoryView.ClickPrevious | frontend/src/components/UserHistory.tsx:356-358 | Previous goes back one page, stays exactly on page 1, and never goes below page 1 |
| HistoryView.PreviousUndoesNext | frontend/src/components/UserHistory.tsx:356-371 | before the last page, Previous undoes Next |
| History.NonEmptyPageWithinRange | backend/server.js:358-441 | the server returns rows only for a page between 1 and its page count, a request without a page being answered as page 1 |
| HistoryView.NextStaysWithinPages | frontend/src/components/UserHistory.tsx:264-377 | wherever the bar is drawn after a load (a non-empty list, more than one page), the page is within the page count, Next is disabled exactly on the last page, and Next never leads past it |
| HistoryView.CardTitle | frontend/src/components/UserHistory.tsx:307-309 | names of at most 30 characters are shown whole; longer ones as their first 30 characters and "..." |

## Left out

- The vision service call, `multer` storage, `sharp` thumbnailing, `bcrypt` and JWT signing and verification are foreign code. Their results are inputs, or are left abstract: a password "hash" matches exactly its password, although `bcrypt` reads only the first 72 bytes, so a longer password sharing them would also log in. The login route signs with `process.env.JWT_SECRET` and has no fallback secret; this is not modelled.
- Concurrency is not modelled. The auto-save is fired and forgotten, so two uploads racing within the window can both pass the duplicate check. Each handler is modelled as one atomic step.
- HistoryView.SearchRequests and `HistoryView.ClearRequests` give only the requests sent before any response arrives. From a page after the first, the first response always puts the old page back (`HistoryView.FirstResponseRestoresPage`), and the effect then requests that page again. The model does not follow this exchange further: it depends on the order in which responses arrive, and may not end. `HistoryView.SearchRestartsAtNewest` speaks only of the requests sent before any response.
- HistoryView.NextStaysWithinPages speaks of the states a load leaves. Between a page click and the start of its reload, React may draw one frame with the new page number and the old rows; that frame is not modelled.
- `UserHistory.tsx` imports `getUserAnalysisHistory` and `bulkDeleteAnalyses` from `frontend/src/services/api.ts`, but that file does not define them. The model assumes a client that forwards page, limit and search text unchanged (`HistoryView.Request`) and sends the selected ids as `analysisIds` (`HistoryView.BulkDeleteView`), and that a refused request throws.
- SQL `LIKE` wildcards (`%`, `_`) inside a search text or stored name are not modelled: a pattern matches as a literal substring.
- Case folding is ASCII only, as in SQLite `LIKE`. JavaScript `toLowerCase` also folds non-ASCII letters; the model uses ASCII for it too. Lengths are counted in characters, not UTF-16 code units.
- `saved_at` is an integer number of milliseconds, not an ISO-8601 string. The server writes same-length UTC strings, which order the same way.
- Missing JSON members and request fields are modelled as `""` or `None`; other JavaScript types (numbers where strings are expected, non-array `analysisIds`) are folded into those cases.
- Database errors (the 500 answers) are not modelled.
- The history page ignores `formattedDate` and `quickInfo`. The statistics page ignores `averagePerWeek`, which is floating-point arithmetic.
- Negative `page` and `limit` parameters are not modelled; `parseInt` results are taken as naturals.
- `POST /api/user/history/export`, the `/api/export/*` routes, `GET /api/images` and `POST /api/user/preferences` are outside the modelled core.
- Statistics.Tally counts every type name as its own key. The source counts in a plain object (`typeCounts[type] = (typeCounts[type] || 0) + 1`), so type names that are `Object.prototype` members differ: `constructor` starts from the inherited function and ends as a string, and `__proto__` never becomes a key. The manual save accepts any client-chosen type, so such names can occur; the model does not follow JavaScript's prototype lookup.
- Archive.SavedRowBlocksWithinWindow and `Archive.ImageInfoMentionsStoredName` require a stored name that `JSON.stringify` writes verbatim. The stored name ends in the extension of the client's file name, which may contain `"` or `\`; for such a name the duplicate check never fires, and the model does not promise that it does.
- `ORDER BY saved_at DESC` leaves the order of rows saved at the same instant unspecified. The model fixes the order its sort gives for such ties.
- Archive.AutoSaveKeepsSpaced does not promise the spacing invariant for a name that occurs inside the new row's image info without being its stored name. The code does not keep it there: that is exactly the false positive `Upload.ContainedNameIsSkipped` shows. With generated names (clock, random number, extension) this needs a client-chosen original name or extension that contains another row's stored name, so it is not a common case.
- ImageSearch.SearchFindsEveryMention, the search-hit lemmas of `History` and `History.TypeFilterFindsType` are stated only for search text or type names that `JSON.stringify` writes verbatim (no quote, backslash or control character). For other text the SQL prefilter compares against the escaped form and may drop rows.
- History.PageIsSlice, `HistoryView.SearchRestartsAtNewest`, `HistoryView.SearchFixedSettlesOnFirstPage` and `HistoryView.ClampedDeleteShowsRows` assume every row of the user has a parsable analysis, and `HistoryView.ClearShowsNewest` states the rows shown only under that condition. The page-1 results, `HistoryView.SearchFixedStaysOnFirstPage` and the first clause of `ClearShowsNewest`, hold always. Rows saved without one are counted in `total` but are dropped from the page (`History.GetHistory` states both).

## Findings

| source | as written | input that shows it | evidently intended | confidence | as-written member | corrected member |
|---|---|---|---|---|---|---|
| frontend/src/components/UserHistory.tsx:53 | after a bulk delete the same page is reloaded, whatever the new page count | 13 rows at 12 a page; on page 2, delete its one row: page 2 comes back empty with `totalPages` 1, so the page shows "No analyses found" and no pagination bar while 12 rows remain | move to the last page when the reloaded page is past it | not executed | HistoryView.DeleteCanStrandPage | HistoryView.BulkDeleteViewClamped |
| frontend/src/components/UserHistory.tsx:42-43 | `handleSearch` resets the page to 1 but its own `loadHistory()` asks for the old page, and the merged response puts that page back | 30 rows, on page 3, search for a text: the response for page 3 sets the page to 3 again, the effect reloads page 3, and the search never settles on page 1 (with one match, page 3 shows "No analyses found") | load page 1 with the new text | not executed | HistoryView.FirstResponseRestoresPage | HistoryView.SearchRequestsFixed |
| frontend/src/components/UserHistory.tsx:247 | Clear calls `loadHistory` from the old render, which still holds the old search text | search "cat" on page 1, then press Clear: the box empties and the Clear button disappears, but the only request is for "cat", so the list stays filtered | reload page 1 without search text | not executed | HistoryView.ClearOnFirstPageKeepsFilter | HistoryView.ClearRequestsFixed |

=== FILE: archive.dfy ===
/**
  The `user_analyses` table of backend/server.js and the statements that change
  it: the auto-save with its five-minute duplicate window, the explicit save
  route and the owner-scoped bulk delete.

  The table is a sequence of rows in insertion (rowid) order together with the
  AUTOINCREMENT counter. `saved_at` is an integer count of milliseconds: the
  server writes ISO-8601 UTC strings of equal length, which compare in the same
  order as the instants they denote.
*/
module Archive {
  import opened Wrappers
  import opened Text
  import opened Seqs

  type UserId = nat

  /** The duplicate window of `autoSaveAnalysis`: five minutes in milliseconds. */
  const DuplicateWindowMs: int := 5 * 60 * 1000

  /**
    The analysis result the vision adapter produces. Only the members the server
    and client inspect are kept apart; `faces` and `rest` hold the JSON text of
    the other members (face list, confidence, timestamps, tags, colours, ...).
  */
  datatype Analysis = Analysis(
    objects: seq<string>,
    text: seq<string>,
    faces: string,
    analysisType: string,
    rest: string)

  /** The description of an uploaded file stored beside its analysis. */
  datatype ImageInfo = ImageInfo(
    originalName: string,
    storedName: string,
    size: nat,
    thumbnail: string,
    fullImage: string)

  /**
    One row of `user_analyses`. A column is `None` when the server stored NULL:
    `JSON.stringify(undefined)` on a save request that lacks the field.
  */
  datatype Record = Record(
    id: nat,
    userId: UserId,
    analysisData: Option<Analysis>,
    imageInfo: Option<ImageInfo>,
    savedAt: int)

  /** The table and its AUTOINCREMENT counter: the id the next insert receives. */
  datatype Archive = Archive(records: seq<Record>, nextId: nat)

  const Empty: Archive := Archive([], 1)

  /** Text of the `analysis_data` column: `JSON.stringify(analysis)`. */
  function AnalysisJson(a: Analysis): string {
    "{\"objects\":" + JsonStringArray(a.objects) + AnalysisJsonTail(a)
  }

  /** The members of `AnalysisJson` that follow `objects`. */
  function AnalysisJsonTail(a: Analysis): string {
    ",\"text\":" + JsonStringArray(a.text) + ",\"faces\":" + a.faces + ","
    + TypeMember(a.analysisType) + (a.rest + "}")
  }

  /** The `"analysisType":<type>` member of `AnalysisJson`. */
  function TypeMember(t: string): string {
    "\"analysisType\":" + JsonString(t)
  }

  /** Text of the `image_info` column: `JSON.stringify(imageInfo)`. */
  function ImageInfoJson(i: ImageInfo): string {
    "{\"originalName\":" + JsonString(i.originalName) + ImageInfoAfterName(i)
  }

  /** The members of `ImageInfoJson` that follow `originalName`. */
  function ImageInfoAfterName(i: ImageInfo): string {
    ",\"storedName\":" + JsonString(i.storedName) + ImageInfoJsonTail(i)
  }

  /** The members of `ImageInfoJson` that follow `storedName`. */
  function ImageInfoJsonTail(i: ImageInfo): string {
    ",\"size\":" + Decimal(i.size)
    + ",\"thumbnail\":" + JsonString(i.thumbnail)
    + ",\"fullImage\":" + JsonString(i.fullImage) + "}"
  }

  /**
    Ids are positive, below the AUTOINCREMENT counter, and distinct: the
    guarantees of `INTEGER PRIMARY KEY AUTOINCREMENT`.
  */
  predicate Valid(a: Archive) {
    && 1 <= a.nextId
    && (forall i :: 0 <= i < |a.records| ==> 1 <= a.records[i].id < a.nextId)
    && (forall i, j :: 0 <= i < j < |a.records| ==> a.records[i].id != a.records[j].id)
  }

  /**
    `INSERT INTO user_analyses ...`: one new row at the end, with the next
    AUTOINCREMENT id; the rows already there are untouched.
  */
  function Insert(a: Archive, userId: UserId, analysisData: Option<Analysis>,
                  imageInfo: Option<ImageInfo>, now: int): (r: (Archive, nat))
    ensures |r.0.records| == |a.records| + 1
    ensures r.0.records[..|a.records|] == a.records
    ensures r.0.records[|a.records|] == Record(r.1, userId, analysisData, imageInfo, now)
    ensures Valid(a) ==> Valid(r.0)
    ensures Valid(a) ==> forall i :: 0 <= i < |a.records| ==> a.records[i].id != r.1
  {
    var row := Record(a.nextId, userId, analysisData, imageInfo, now);
    assert (a.records + [row])[..|a.records|] == a.records;
    (Archive(a.records + [row], a.nextId + 1), a.nextId)
  }

  // ---------------------------------------------------------------- auto-save

  /** The row concerns the same user and its image info mentions the stored file name. */
  predicate SameFile(r: Record, userId: UserId, storedName: string) {
    && r.userId == userId
    && r.imageInfo.Some?
    && LikeContains(ImageInfoJson(r.imageInfo.value), storedName)
  }

  /**
    The row matches the duplicate query of `autoSaveAnalysis`:
    `user_id = ? AND image_info LIKE '%storedName%' AND saved_at > now - 5 min`.
    The comparison is strict.
  */
  predicate Blocks(r: Record, userId: UserId, storedName: string, now: int) {
    SameFile(r, userId, storedName) && r.savedAt > now - DuplicateWindowMs
  }

  /**
    `SELECT id ... LIMIT 1`: the position of the first row that blocks the save,
    or `None` when no row does.
  */
  function FirstDuplicate(rs: seq<Record>, userId: UserId, storedName: string, now: int): (r: Option<nat>)
    ensures r.Some? ==> r.value < |rs| && Blocks(rs[r.value], userId, storedName, now)
    ensures r.Some? ==> forall i :: 0 <= i < r.value ==> !Blocks(rs[i], userId, storedName, now)
    ensures r.None? <==> forall i :: 0 <= i < |rs| ==> !Blocks(rs[i], userId, storedName, now)
  {
    FirstDuplicateFrom(rs, 0, userId, storedName, now)
  }

  function FirstDuplicateFrom(rs: seq<Record>, from: nat, userId: UserId, storedName: string, now: int): (r: Option<nat>)
    requires from <= |rs|
    requires forall i :: 0 <= i < from ==> !Blocks(rs[i], userId, storedName, now)
    ensures r.Some? ==> from <= r.value < |rs| && Blocks(rs[r.value], userId, storedName, now)
    ensures r.Some? ==> forall i :: 0 <= i < r.value ==> !Blocks(rs[i], userId, storedName, now)
    ensures r.None? <==> forall i :: 0 <= i < |rs| ==> !Blocks(rs[i], userId, storedName, now)
    decreases |rs| - from
  {
    if from == |rs| then None
    else if Blocks(rs[from], userId, storedName, now) then Some(from)
    else FirstDuplicateFrom(rs, from + 1, userId, storedName, now)
  }

  predicate HasRecentDuplicate(a: Archive, userId: UserId, storedName: string, now: int) {
    exists i :: 0 <= i < |a.records| && Blocks(a.records[i], userId, storedName, now)
  }

  /** What `autoSaveAnalysis` resolves with. */
  datatype SaveOutcome = SkippedDuplicate | Saved(savedId: nat)

  /**
    `autoSaveAnalysis(userId, analysis, imageInfo)` at instant `now`: skip when a
    row blocks, otherwise insert one row stamped `now`.
  */
  function AutoSave(a: Archive, userId: UserId, analysis: Analysis, info: ImageInfo, now: int): (r: (Archive, SaveOutcome))
    ensures r.1.SkippedDuplicate? <==> HasRecentDuplicate(a, userId, info.storedName, now)
    ensures r.1.SkippedDuplicate? ==> r.0 == a
    ensures r.1.Saved? ==>
      && |r.0.records| == |a.records| + 1
      && r.0.records[..|a.records|] == a.records
      && r.0.records[|a.records|] == Record(r.1.savedId, userId, Some(analysis), Some(info), now)
    ensures Valid(a) ==> Valid(r.0)
    ensures Valid(a) && r.1.Saved? ==> forall i :: 0 <= i < |a.records| ==> a.records[i].id != r.1.savedId
  {
    if FirstDuplicate(a.records, userId, info.storedName, now).Some? then
      (a, SkippedDuplicate)
    else
      var (a', id) := Insert(a, userId, Some(analysis), Some(info), now);
      (a', Saved(id))
  }

  /**
    The stored image info mentions its own stored file name, provided that name
    is written verbatim by `JSON.stringify` (no quote, backslash or control
    character). The generated part of the name always is; the extension
    copied from the client's file name need not be.
  */
  lemma ImageInfoMentionsStoredName(info: ImageInfo)
    requires NoEscapes(info.storedName)
    ensures LikeContains(ImageInfoJson(info), info.storedName)
  {
    EscapeVerbatim(info.storedName);
    ContainsMiddle("\"", info.storedName, "\"");
    ContainsWiden(",\"storedName\":", JsonString(info.storedName), ImageInfoJsonTail(info), info.storedName);
    ContainsWiden("{\"originalName\":" + JsonString(info.originalName), ImageInfoAfterName(info), "", info.storedName);
    assert ImageInfoJson(info) + "" == ImageInfoJson(info);
    ContainsIsLike(ImageInfoJson(info), info.storedName);
  }

  /**
    A saved upload suppresses every auto-save of the same file by the same user
    for the next five minutes, whatever else is saved or deleted in between as
    long as the saved row is still there.
  */
  lemma SavedRowBlocksWithinWindow(a: Archive, userId: UserId, analysis: Analysis, info: ImageInfo,
                                   now: int, later: Archive, analysis2: Analysis, info2: ImageInfo, now2: int)
    requires NoEscapes(info.storedName)
    requires info2.storedName == info.storedName
    requires AutoSave(a, userId, analysis, info, now).1.Saved?
    requires AutoSave(a, userId, analysis, info, now).0.records[|a.records|] in later.records
    requires now2 < now + DuplicateWindowMs
    ensures AutoSave(later, userId, analysis2, info2, now2) == (later, SkippedDuplicate)
  {
    var row := AutoSave(a, userId, analysis, info, now).0.records[|a.records|];
    ImageInfoMentionsStoredName(info);
    var i :| 0 <= i < |later.records| && later.records[i] == row;
    assert Blocks(later.records[i], userId, info2.storedName, now2);
  }

  /**
    Two auto-saves of the same file by the same user at least five minutes
    apart both insert: neither the first save's row nor any older row can block
    the second one.
  */
  lemma SavesApartBothInsert(a: Archive, userId: UserId, analysis: Analysis, info: ImageInfo, now: int,
                             analysis2: Analysis, now2: int)
    requires !HasRecentDuplicate(a, userId, info.storedName, now)
    requires now2 >= now + DuplicateWindowMs
    ensures AutoSave(a, userId, analysis, info, now).1.Saved?
    ensures AutoSave(AutoSave(a, userId, analysis, info, now).0, userId, analysis2, info, now2).1.Saved?
  {
    var a1 := AutoSave(a, userId, analysis, info, now).0;
    forall i | 0 <= i < |a1.records|
      ensures !Blocks(a1.records[i], userId, info.storedName, now2)
    {
      if i < |a.records| {
        assert a1.records[i] == a.records[i];
        assert !Blocks(a.records[i], userId, info.storedName, now);
      }
    }
  }

  /**
    Only the caller's own recent rows can block: adding rows of other users, or
    rows saved at or before `now - 5 min`, never changes the outcome.
  */
  lemma OnlyOwnRecentRowsBlock(a: Archive, extra: seq<Record>, userId: UserId, analysis: Analysis,
                               info: ImageInfo, now: int)
    requires forall k :: 0 <= k < |extra| ==>
      extra[k].userId != userId || extra[k].savedAt <= now - DuplicateWindowMs
    ensures AutoSave(Archive(a.records + extra, a.nextId), userId, analysis, info, now).1.SkippedDuplicate?
        == AutoSave(a, userId, analysis, info, now).1.SkippedDuplicate?
  {
    RecentDuplicateIgnoresExtra(a, extra, userId, info.storedName, now);
  }

  lemma RecentDuplicateIgnoresExtra(a: Archive, extra: seq<Record>, userId: UserId, storedName: string, now: int)
    requires forall k :: 0 <= k < |extra| ==>
      extra[k].userId != userId || extra[k].savedAt <= now - DuplicateWindowMs
    ensures HasRecentDuplicate(Archive(a.records + extra, a.nextId), userId, storedName, now)
        == HasRecentDuplicate(a, userId, storedName, now)
  {
    var b := Archive(a.records + extra, a.nextId);
    forall i | |a.records| <= i < |b.records|
      ensures !Blocks(b.records[i], userId, storedName, now)
    {
      assert b.records[i] == extra[i - |a.records|];
    }
    forall i | 0 <= i < |a.records|
      ensures b.records[i] == a.records[i]
    {
    }
  }

  /**
    The de-duplication invariant: any two rows of `userId` that mention
    `storedName` were saved at least five minutes apart, in table order.
  */
  predicate Spaced(rs: seq<Record>, userId: UserId, storedName: string) {
    forall i, j :: 0 <= i < j < |rs| && SameFile(rs[i], userId, storedName) && SameFile(rs[j], userId, storedName)
      ==> rs[j].savedAt >= rs[i].savedAt + DuplicateWindowMs
  }

  /**
    Auto-save keeps the invariant for the file it saves, and for any other
    (user, name) pair the new row does not mention. A name that merely occurs
    inside the new row's image info (one stored name a substring of another)
    is the one way auto-save can break it.
  */
  lemma AutoSaveKeepsSpaced(a: Archive, userId: UserId, analysis: Analysis, info: ImageInfo, now: int,
                            who: UserId, name: string)
    requires Spaced(a.records, who, name)
    requires who != userId || name == info.storedName || !LikeContains(ImageInfoJson(info), name)
    ensures Spaced(AutoSave(a, userId, analysis, info, now).0.records, who, name)
  {
    var (a', outcome) := AutoSave(a, userId, analysis, info, now);
    if outcome.Saved? {
      var rs := a'.records;
      var n := |a.records|;
      forall i, j | 0 <= i < j < |rs| && SameFile(rs[i], who, name) && SameFile(rs[j], who, name)
        ensures rs[j].savedAt >= rs[i].savedAt + DuplicateWindowMs
      {
        assert rs[i] == a.records[i];
        if j < n {
          assert rs[j] == a.records[j];
        } else {
          assert rs[j] == Record(outcome.savedId, userId, Some(analysis), Some(info), now);
          assert !Blocks(a.records[i], userId, info.storedName, now);
        }
      }
    }
  }

  // ------------------------------------------------------------- manual save

  /**
    `POST /api/user/save-analysis`: always inserts one row for the
    authenticated caller, with no duplicate check.
  */
  function SaveAnalysis(a: Archive, userId: UserId, analysisData: Option<Analysis>,
                        imageInfo: Option<ImageInfo>, now: int): (r: (Archive, nat))
    ensures |r.0.records| == |a.records| + 1
    ensures r.0.records[..|a.records|] == a.records
    ensures r.0.records[|a.records|] == Record(r.1, userId, analysisData, imageInfo, now)
    ensures Valid(a) ==> Valid(r.0)
    ensures Valid(a) ==> forall i :: 0 <= i < |a.records| ==> a.records[i].id != r.1
  {
    Insert(a, userId, analysisData, imageInfo, now)
  }

  /** Unlike auto-save, the explicit save inserts even when a duplicate is recent. */
  lemma ManualSaveIgnoresWindow(a: Archive, userId: UserId, analysis: Analysis, info: ImageInfo, now: int)
    requires HasRecentDuplicate(a, userId, info.storedName, now)
    ensures AutoSave(a, userId, analysis, info, now).0 == a
    ensures |SaveAnalysis(a, userId, Some(analysis), Some(info), now).0.records| == |a.records| + 1
  {
  }

  // ------------------------------------------------------------- bulk delete

  datatype DeleteError = IdsRequired

  /** The row is hit by `DELETE ... WHERE user_id = ? AND id IN (...)`. */
  predicate Doomed(r: Record, userId: UserId, ids: seq<int>) {
    r.userId == userId && (r.id as int) in ids
  }

  /**
    `DELETE /api/user/history/bulk`: rejected unless `analysisIds` is a
    non-empty array (`None` stands for a missing or non-array field);
    otherwise removes exactly the caller's rows whose id is listed and reports
    how many went.
  */
  function BulkDelete(a: Archive, userId: UserId, ids: Option<seq<int>>): (r: Result<(Archive, nat), DeleteError>)
    ensures r.Failure? <==> ids.None? || |ids.value| == 0
    ensures r.Success? ==>
      && r.value.0.nextId == a.nextId
      && IsSubseq(r.value.0.records, a.records)
      && (forall i :: 0 <= i < |a.records| ==>
            (a.records[i] in r.value.0.records <==> !Doomed(a.records[i], userId, ids.value)))
      && (forall x :: x in r.value.0.records ==> x in a.records && !Doomed(x, userId, ids.value))
      && r.value.1 == |a.records| - |r.value.0.records|
  {
    if ids.None? || |ids.value| == 0 then Failure(IdsRequired)
    else
      var keep := (x: Record) => !Doomed(x, userId, ids.value);
      var doomed := (x: Record) => Doomed(x, userId, ids.value);
      var kept := Filter(keep, a.records);
      FilterIsSubseq(keep, a.records);
      FilterPartition(keep, doomed, a.records);
      Success((Archive(kept, a.nextId), |a.records| - |kept|))
  }

  /** Deleting rows keeps the AUTOINCREMENT guarantees. */
  lemma BulkDeleteKeepsValid(a: Archive, userId: UserId, ids: Option<seq<int>>)
    requires Valid(a)
    requires BulkDelete(a, userId, ids).Success?
    ensures Valid(BulkDelete(a, userId, ids).value.0)
  {
    var keep := (x: Record) => !Doomed(x, userId, ids.value);
    var distinct := (x: Record, y: Record) => x.id != y.id;
    assert Pairwise(distinct, a.records);
    FilterKeepsPairwise(distinct, keep, a.records);
    var kept := BulkDelete(a, userId, ids).value.0.records;
    forall i | 0 <= i < |kept|
      ensures 1 <= kept[i].id < a.nextId
    {
      assert kept[i] in kept;
    }
  }

  /** Deleting rows keeps the de-duplication invariant. */
  lemma BulkDeleteKeepsSpaced(a: Archive, userId: UserId, ids: Option<seq<int>>, who: UserId, name: string)
    requires Spaced(a.records, who, name)
    requires BulkDelete(a, userId, ids).Success?
    ensures Spaced(BulkDelete(a, userId, ids).value.0.records, who, name)
  {
    var keep := (x: Record) => !Doomed(x, userId, ids.value);
    var apart := (x: Record, y: Record) =>
      SameFile(x, who, name) && SameFile(y, who, name) ==> y.savedAt >= x.savedAt + DuplicateWindowMs;
    assert Pairwise(apart, a.records);
    FilterKeepsPairwise(apart, keep, a.records);
  }

  /** Rows of other users, and the caller's unlisted rows, always survive a bulk delete. */
  lemma BulkDeleteSparesOthers(a: Archive, userId: UserId, ids: seq<int>, i: int)
    requires |ids| > 0
    requires 0 <= i < |a.records|
    requires a.records[i].userId != userId || (a.records[i].id as int) !in ids
    ensures a.records[i] in BulkDelete(a, userId, Some(ids)).value.0.records
  {
  }

  /** Distinct ids drawn from `ids` number at most `|ids|`. */
  lemma {:induction false} DistinctIdsBound(rs: seq<Record>, ids: set<int>)
    requires forall i, j :: 0 <= i < j < |rs| ==> rs[i].id != rs[j].id
    requires forall i :: 0 <= i < |rs| ==> (rs[i].id as int) in ids
    ensures |rs| <= |ids|
  {
    if rs != [] {
      var last := rs[|rs| - 1];
      var init := rs[..|rs| - 1];
      var rest := ids - {last.id as int};
      forall i | 0 <= i < |init|
        ensures (init[i].id as int) in rest
      {
        assert init[i] == rs[i];
      }
      DistinctIdsBound(init, rest);
    }
  }

  /** In a valid table a bulk delete removes at most as many rows as ids were sent. */
  lemma BulkDeleteCountBound(a: Archive, userId: UserId, ids: seq<int>)
    requires Valid(a)
    requires |ids| > 0
    ensures BulkDelete(a, userId, Some(ids)).value.1 <= |ids|
  {
    var keep := (x: Record) => !Doomed(x, userId, ids);
    var doomed := (x: Record) => Doomed(x, userId, ids);
    var gone := Filter(doomed, a.records);
    FilterPartition(keep, doomed, a.records);
    var distinct := (x: Record, y: Record) => x.id != y.id;
    assert Pairwise(distinct, a.records);
    FilterKeepsPairwise(distinct, doomed, a.records);
    forall i | 0 <= i < |gone|
      ensures (gone[i].id as int) in set k | k in ids
    {
      assert gone[i] in gone;
    }
    DistinctIdsBound(gone, set k | k in ids);
    SetOfSeqBound(ids);
  }

  lemma {:induction false} SetOfSeqBound(ids: seq<int>)
    ensures |set k | k in ids| <= |ids|
  {
    if ids != [] {
      var init := ids[..|ids| - 1];
      SetOfSeqBound(init);
      assert (set k | k in ids) == (set k | k in init) + {ids[|ids| - 1]} by {
        assert ids == init + [ids[|ids| - 1]];
      }
    }
  }
}

=== FILE: auth.dfy ===
/**
  The validation branches of `POST /api/auth/register` and
  `POST /api/auth/login` in backend/server.js, over the `users` table.
  Password hashing is abstracted as equality: a stored password matches
  exactly the password it was made from. `bcrypt.compare` is weaker than
  that, since bcrypt reads only the first 72 bytes of a password.
*/
module Auth {
  import opened Wrappers

  const MinPasswordLength: nat := 6

  /** One row of `users`; `password` stands for the bcrypt hash of the password. */
  datatype User = User(id: nat, username: string, email: string, password: string)

  datatype Users = Users(list: seq<User>, nextId: nat)

  datatype AuthError =
    | AllFieldsRequired
    | PasswordTooShort
    | UserExists
    | EmailPasswordRequired
    | InvalidCredentials

  /** What a successful register or login answers: the user the signed token names. */
  datatype Session = Session(userId: nat, username: string, email: string)

  /**
    No two users share an email or a username, and ids are below the
    AUTOINCREMENT counter. Register keeps this; nothing else writes `users`.
  */
  predicate Unique(db: Users) {
    && (forall i :: 0 <= i < |db.list| ==> db.list[i].id < db.nextId)
    && (forall i, j :: 0 <= i < j < |db.list| ==>
          && db.list[i].email != db.list[j].email
          && db.list[i].username != db.list[j].username
          && db.list[i].id != db.list[j].id)
  }

  /** `SELECT * FROM users WHERE email = ? OR username = ?` finds a row. */
  predicate Taken(db: Users, username: string, email: string) {
    exists i :: 0 <= i < |db.list| && (db.list[i].email == email || db.list[i].username == username)
  }

  /**
    `POST /api/auth/register`. A field that is missing or empty is `""`
    (JavaScript's `!field`).
  */
  function Register(db: Users, username: string, email: string, password: string): (r: Result<(Users, Session), AuthError>)
    ensures r.Failure? && r.error == AllFieldsRequired <==> username == "" || email == "" || password == ""
    ensures r.Failure? && r.error == PasswordTooShort <==>
      username != "" && email != "" && password != "" && |password| < MinPasswordLength
    ensures r.Failure? && r.error == UserExists <==>
      username != "" && email != "" && |password| >= MinPasswordLength && Taken(db, username, email)
    ensures r.Failure? ==> r.error in {AllFieldsRequired, PasswordTooShort, UserExists}
    ensures r.Success? ==>
      && r.value.0.list == db.list + [User(db.nextId, username, email, password)]
      && r.value.0.nextId == db.nextId + 1
      && r.value.1 == Session(db.nextId, username, email)
    ensures r.Success? && Unique(db) ==> Unique(r.value.0)
  {
    if username == "" || email == "" || password == "" then Failure(AllFieldsRequired)
    else if |password| < MinPasswordLength then Failure(PasswordTooShort)
    else if Taken(db, username, email) then Failure(UserExists)
    else
      var u := User(db.nextId, username, email, password);
      var db' := Users(db.list + [u], db.nextId + 1);
      assert Unique(db) ==> Unique(db') by {
        if Unique(db) {
          forall i, j | 0 <= i < j < |db'.list|
            ensures db'.list[i].email != db'.list[j].email && db'.list[i].username != db'.list[j].username
                 && db'.list[i].id != db'.list[j].id
          {
            assert db'.list[i] == db.list[i];
            if j == |db.list| {
              assert db'.list[j] == u;
              assert !(db.list[i].email == email || db.list[i].username == username);
            } else {
              assert db'.list[j] == db.list[j];
            }
          }
        }
      }
      Success((db', Session(u.id, username, email)))
  }

  /**
    `db.get('SELECT * FROM users WHERE email = ?')`: the position of the first
    row with this email, if any.
  */
  function FindByEmail(list: seq<User>, email: string): (r: Option<nat>)
    ensures r.Some? ==> r.value < |list| && list[r.value].email == email
    ensures r.Some? ==> forall i :: 0 <= i < r.value ==> list[i].email != email
    ensures r.None? <==> forall i :: 0 <= i < |list| ==> list[i].email != email
  {
    if list == [] then None
    else if list[0].email == email then Some(0)
    else
      var rest := FindByEmail(list[1..], email);
      if rest.None? then None else Some(rest.value + 1)
  }

  /** `POST /api/auth/login`. */
  function Login(db: Users, email: string, password: string): (r: Result<Session, AuthError>)
    ensures r.Failure? && r.error == EmailPasswordRequired <==> email == "" || password == ""
    ensures r.Failure? ==> r.error in {EmailPasswordRequired, InvalidCredentials}
    ensures r.Success? ==> exists i :: (0 <= i < |db.list| && db.list[i].email == email
      && db.list[i].password == password
      && r.value == Session(db.list[i].id, db.list[i].username, email))
    ensures email != "" && password != "" && (forall i :: 0 <= i < |db.list| ==> db.list[i].email != email)
      ==> r == Failure(InvalidCredentials)
  {
    if email == "" || password == "" then Failure(EmailPasswordRequired)
    else
      match FindByEmail(db.list, email)
      case None => Failure(InvalidCredentials)
      case Some(i) =>
        var user := db.list[i];
        if user.password != password then Failure(InvalidCredentials)
        else Success(Session(user.id, user.username, user.email))
  }

  /**
    Login gives away nothing about which emails are registered: with a
    registered email and the wrong password it answers exactly what it
    answers for an email nobody registered.
  */
  lemma LoginHidesRegisteredEmails(db: Users, email: string, other: string, password: string, i: int)
    requires Unique(db)
    requires 0 <= i < |db.list| && db.list[i].email == email && db.list[i].password != password
    requires email != "" && password != "" && other != "" && forall k :: 0 <= k < |db.list| ==> db.list[k].email != other
    ensures Login(db, email, password) == Login(db, other, password) == Failure(InvalidCredentials)
  {
    var f := FindByEmail(db.list, email);
    assert f.Some?;
    assert f.value == i;
  }

  /** With unique emails, the registered password of a user is the one that logs them in. */
  lemma LoginAcceptsRegisteredPassword(db: Users, i: int)
    requires Unique(db)
    requires 0 <= i < |db.list| && db.list[i].email != "" && db.list[i].password != ""
    ensures Login(db, db.list[i].email, db.list[i].password)
         == Success(Session(db.list[i].id, db.list[i].username, db.list[i].email))
  {
    var f := FindByEmail(db.list, db.list[i].email);
    assert f.Some?;
    assert f.value == i;
  }

  /** Registering and then logging in with the same email and password yields the new user's session. */
  lemma RegisterThenLogin(db: Users, username: string, email: string, password: string)
    requires Unique(db)
    requires Register(db, username, email, password).Success?
    ensures var (db', s) := Register(db, username, email, password).value;
      Login(db', email, password) == Success(s)
  {
    var db' := Register(db, username, email, password).value.0;
    LoginAcceptsRegisteredPassword(db', |db.list|);
  }

  /** A second registration with the same email or the same username is refused. */
  lemma RegisterTwiceRefused(db: Users, username: string, email: string, password: string,
                             username2: string, email2: string, password2: string)
    requires Register(db, username, email, password).Success?
    requires username2 == username || email2 == email
    requires username2 != "" && email2 != "" && |password2| >= MinPasswordLength
    ensures Register(Register(db, username, email, password).value.0, username2, email2, password2)
         == Failure(UserExists)
  {
    var db' := Register(db, username, email, password).value.0;
    assert db'.list[|db.list|].email == email && db'.list[|db.list|].username == username;
    assert Taken(db', username2, email2);
  }
}

=== FILE: azure.dfy ===
/**
  `getAnalysisTypeFromAzure` of backend/server.js: the analysis type the server
  stores with each analysis, chosen from the vision service's category and tag
  names by a fixed list of rules tried in order.
*/
module AzureType {
  import opened Wrappers
  import opened Text
  import opened AnalysisKinds

  const LandscapeTags: seq<string> := ["mountain", "sky", "nature", "outdoor"]
  const UrbanTags: seq<string> := ["building", "city", "urban"]
  const FoodTags: seq<string> := ["food", "meal"]
  const AnimalTags: seq<string> := ["animal", "pet", "cat", "dog"]
  const DocumentTags: seq<string> := ["text", "document"]

  /** The substring a category name must contain for the image to count as a portrait. */
  const PeopleMarker: string := "people_"

  /** `result.categories?.map(c => c.name) || []`: an absent list reads as empty. */
  function Names(xs: Option<seq<string>>): seq<string> {
    if xs.None? then [] else xs.value
  }

  /** `names.some(n => n.includes(part))`. */
  predicate SomeIncludes(names: seq<string>, part: string) {
    exists i :: 0 <= i < |names| && Contains(names[i], part)
  }

  /** `names.some(n => words.includes(n))`: some name is exactly one of the words. */
  predicate SomeListed(names: seq<string>, words: seq<string>) {
    exists i :: 0 <= i < |names| && names[i] in words
  }

  /** The classifier's rules as a table: whether the rule for type `k` fires. */
  predicate Fires(k: string, categories: seq<string>, tags: seq<string>) {
    if k == Portrait then SomeIncludes(categories, PeopleMarker)
    else if k == Landscape then SomeListed(tags, LandscapeTags)
    else if k == Urban then SomeListed(tags, UrbanTags)
    else if k == Food then SomeListed(tags, FoodTags)
    else if k == Animal then SomeListed(tags, AnimalTags)
    else if k == Document then SomeListed(tags, DocumentTags)
    else false
  }

  /** The rules of `getAnalysisTypeFromAzure` in the order the source tries them. */
  function RuleChain(cs: seq<string>, ts: seq<string>): string {
    if SomeIncludes(cs, PeopleMarker) then Portrait
    else if SomeListed(ts, LandscapeTags) then Landscape
    else if SomeListed(ts, UrbanTags) then Urban
    else if SomeListed(ts, FoodTags) then Food
    else if SomeListed(ts, AnimalTags) then Animal
    else if SomeListed(ts, DocumentTags) then Document
    else General
  }

  /** The chain of rules picks the first type of `Ranked` whose rule fires. */
  lemma RuleChainFirstFiring(cs: seq<string>, ts: seq<string>)
    ensures PicksFirstFiring((k: string) => Fires(k, cs, ts), RuleChain(cs, ts))
  {
    var f := (k: string) => Fires(k, cs, ts);
    assert f(Portrait) == SomeIncludes(cs, PeopleMarker);
    assert f(Landscape) == SomeListed(ts, LandscapeTags);
    assert f(Urban) == SomeListed(ts, UrbanTags);
    assert f(Food) == SomeListed(ts, FoodTags);
    assert f(Animal) == SomeListed(ts, AnimalTags);
    assert f(Document) == SomeListed(ts, DocumentTags);
    assert RuleChain(cs, ts) == FirstFiring(f);
    FirstFiringPicks(f);
  }

  /**
    The type for a vision result with the given category and tag names: the
    first rule in `Ranked` order that fires, else `general`.
  */
  function TypeFromAzure(categories: Option<seq<string>>, tags: Option<seq<string>>): (r: string)
    ensures PicksFirstFiring((k: string) => Fires(k, Names(categories), Names(tags)), r)
    ensures r in AnalysisTypes
  {
    var cs := Names(categories);
    var ts := Names(tags);
    RuleChainFirstFiring(cs, ts);
    FirstFiringIsType((k: string) => Fires(k, cs, ts), RuleChain(cs, ts));
    RuleChain(cs, ts)
  }

  /**
    A category naming people makes a portrait whatever the tags say: the
    portrait rule outranks all the tag rules.
  */
  lemma PeopleCategoryWins(categories: seq<string>, tags: Option<seq<string>>, k: int)
    requires 0 <= k < |categories| && Contains(categories[k], PeopleMarker)
    ensures TypeFromAzure(Some(categories), tags) == Portrait
  {
    var fires := (t: string) => Fires(t, categories, Names(tags));
    assert Names(Some(categories)) == categories;
    assert fires(Portrait);
    assert PicksFirstFiring(fires, Portrait) by {
      assert Ranked[0] == Portrait;
    }
    FirstFiringUnique(fires, Portrait, TypeFromAzure(Some(categories), tags));
  }

  /** A result with neither categories nor tags is `general`. */
  lemma NothingDetectedIsGeneral()
    ensures TypeFromAzure(None, None) == General
  {
    var fires := (t: string) => Fires(t, [], []);
    assert forall i :: 0 <= i < |Ranked| ==> !fires(Ranked[i]);
    assert PicksFirstFiring(fires, General);
    FirstFiringUnique(fires, General, TypeFromAzure(None, None));
  }

  /**
    Tags match whole names only: a tag that merely contains a keyword, such as
    `skyscraper`, does not fire the landscape rule.
  */
  lemma TagsMatchExactly()
    ensures TypeFromAzure(None, Some(["skyscraper"])) == General
  {
    var tags := ["skyscraper"];
    assert tags[0] !in LandscapeTags && tags[0] !in UrbanTags && tags[0] !in FoodTags;
    assert tags[0] !in AnimalTags && tags[0] !in DocumentTags;
    assert !SomeListed(tags, LandscapeTags);
  }
}

=== FILE: gallery.dfy ===
/**
  The public gallery of frontend/src/components/DiscoverGallery.tsx: it turns
  search results into cards, guesses each card's analysis type from the
  detected object names, and narrows the cards by a search text and a type.
*/
module Gallery {
  import opened Wrappers
  import opened Text
  import opened Seqs
  import opened Paths
  import opened AnalysisKinds
  import opened ImageSearch
  import Upload

  /** A gallery card: a search result plus the URLs and type the client derives. */
  datatype PublicAnalysis = PublicAnalysis(
    id: nat,
    filename: string,
    objects: seq<string>,
    text: seq<string>,
    faces: string,
    uploadDate: int,
    imagePath: string,
    thumbnail: string,
    fullImage: string,
    analysisType: string)

  /** File names longer than this are cut on the cards. */
  const TitleLength: nat := 25

  /** The keywords that make an object list count as type `k`. */
  function Keywords(k: string): seq<string> {
    if k == Portrait then ["person", "face"]
    else if k == Landscape then ["tree", "mountain", "sky"]
    else if k == Urban then ["building", "car", "street"]
    else if k == Food then ["food", "plate", "meal"]
    else if k == Animal then ["animal", "cat", "dog"]
    else if k == Document then ["text", "document"]
    else []
  }

  /** `objects.join(' ').toLowerCase()`. */
  function ObjectString(objects: seq<string>): string {
    Lower(Join(objects, " "))
  }

  /** The rule for type `k` fires: the object string includes one of its keywords. */
  predicate Fires(k: string, objString: string) {
    exists i :: 0 <= i < |Keywords(k)| && Contains(objString, Keywords(k)[i])
  }

  lemma NoKeywordInEmpty(k: string)
    ensures !Fires(k, "")
  {
    forall i | 0 <= i < |Keywords(k)|
      ensures !Contains("", Keywords(k)[i])
    {
      assert |Keywords(k)[i]| > 0;
    }
  }

  /**
    The keyword tests of `getAnalysisType` in the order the source makes them;
    `FiresByKeyword` spells each test out as the `includes` calls it stands for.
  */
  function KeywordChain(s: string): string {
    if Fires(Portrait, s) then Portrait
    else if Fires(Landscape, s) then Landscape
    else if Fires(Urban, s) then Urban
    else if Fires(Food, s) then Food
    else if Fires(Animal, s) then Animal
    else if Fires(Document, s) then Document
    else General
  }

  /** Each keyword test is the rule of the keyword table for its type. */
  lemma FiresByKeyword(s: string)
    ensures Fires(Portrait, s) <==> Contains(s, "person") || Contains(s, "face")
    ensures Fires(Landscape, s) <==> Contains(s, "tree") || Contains(s, "mountain") || Contains(s, "sky")
    ensures Fires(Urban, s) <==> Contains(s, "building") || Contains(s, "car") || Contains(s, "street")
    ensures Fires(Food, s) <==> Contains(s, "food") || Contains(s, "plate") || Contains(s, "meal")
    ensures Fires(Animal, s) <==> Contains(s, "animal") || Contains(s, "cat") || Contains(s, "dog")
    ensures Fires(Document, s) <==> Contains(s, "text") || Contains(s, "document")
  {
    FiresOfTwo(Portrait, s, "person", "face");
    FiresOfThree(Landscape, s, "tree", "mountain", "sky");
    FiresOfThree(Urban, s, "building", "car", "street");
    FiresOfThree(Food, s, "food", "plate", "meal");
    FiresOfThree(Animal, s, "animal", "cat", "dog");
    FiresOfTwo(Document, s, "text", "document");
  }

  lemma FiresOfTwo(k: string, s: string, a: string, b: string)
    requires Keywords(k) == [a, b]
    ensures Fires(k, s) <==> Contains(s, a) || Contains(s, b)
  {
    var ws := Keywords(k);
    if Contains(s, a) {
      assert Contains(s, ws[0]);
    }
    if Contains(s, b) {
      assert Contains(s, ws[1]);
    }
  }

  lemma FiresOfThree(k: string, s: string, a: string, b: string, c: string)
    requires Keywords(k) == [a, b, c]
    ensures Fires(k, s) <==> Contains(s, a) || Contains(s, b) || Contains(s, c)
  {
    var ws := Keywords(k);
    if Contains(s, a) {
      assert Contains(s, ws[0]);
    }
    if Contains(s, b) {
      assert Contains(s, ws[1]);
    }
    if Contains(s, c) {
      assert Contains(s, ws[2]);
    }
  }

  /** The chain of keyword tests picks the first type whose keyword table fires. */
  lemma KeywordChainFirstFiring(s: string)
    ensures PicksFirstFiring((k: string) => Fires(k, s), KeywordChain(s))
  {
    var f := (k: string) => Fires(k, s);
    assert KeywordChain(s) == FirstFiring(f);
    FirstFiringPicks(f);
  }

  /** `getAnalysisType(objects)`. */
  function GetAnalysisType(objects: seq<string>): (r: string)
    ensures |objects| == 0 ==> r == General
    ensures PicksFirstFiring((k: string) => Fires(k, ObjectString(objects)), r)
    ensures r in AnalysisTypes
  {
    if |objects| == 0 then
      assert ObjectString(objects) == "";
      forall i | 0 <= i < |Ranked|
        ensures !Fires(Ranked[i], "")
      {
        NoKeywordInEmpty(Ranked[i]);
      }
      General
    else
      KeywordChainFirstFiring(ObjectString(objects));
      FirstFiringIsType((k: string) => Fires(k, ObjectString(objects)), KeywordChain(ObjectString(objects)));
      KeywordChain(ObjectString(objects))
  }

  /** A string without upper-case ASCII letters is its own lower-case form. */
  lemma {:induction false} LowerFixesLowercase(s: string)
    requires forall i :: 0 <= i < |s| ==> !('A' <= s[i] <= 'Z')
    ensures Lower(s) == s
  {
    if s != [] {
      LowerFixesLowercase(s[1..]);
    }
  }

  /**
    An object whose name mentions a person, in any ASCII case, makes the card
    a portrait whatever the other objects are.
  */
  lemma PersonMakesPortrait(objects: seq<string>, k: int)
    requires 0 <= k < |objects| && Contains(Lower(objects[k]), "person")
    ensures GetAnalysisType(objects) == Portrait
  {
    var joined := Join(objects, " ");
    JoinContains(objects, " ", k);
    LowerKeepsContains(joined, objects[k]);
    ContainsTrans(ObjectString(objects), Lower(objects[k]), "person");
    var fires := (t: string) => Fires(t, ObjectString(objects));
    assert Keywords(Portrait)[0] == "person";
    assert fires(Portrait);
    assert PicksFirstFiring(fires, Portrait) by {
      assert Ranked[0] == Portrait;
    }
    FirstFiringUnique(fires, Portrait, GetAnalysisType(objects));
  }

  /** The card built for one search result. */
  function ToPublic(item: SearchItem): (r: PublicAnalysis)
    ensures r.id == item.id && r.filename == item.filename && r.imagePath == item.imagePath
    ensures r.objects == item.objects && r.text == item.text
    ensures StoredNameOfThumbnail(r.thumbnail) == Some(item.imagePath)
    ensures r.fullImage == UploadsPrefix + item.imagePath
    ensures r.faces == item.faces && r.uploadDate == item.uploadDate
    ensures r.analysisType == GetAnalysisType(item.objects) && r.analysisType in AnalysisTypes
  {
    ThumbnailRoundTrip(item.imagePath);
    PublicAnalysis(item.id, item.filename, item.objects, item.text, item.faces, item.uploadDate, item.imagePath,
                   ThumbnailPath(item.imagePath), FullImagePath(item.imagePath), GetAnalysisType(item.objects))
  }

  /** The cards shown after a search: one per result, in the server's order. */
  function Cards(results: seq<SearchItem>): (r: seq<PublicAnalysis>)
    ensures |r| == |results|
    ensures forall i :: 0 <= i < |results| ==> r[i] == ToPublic(results[i])
  {
    seq(|results|, i requires 0 <= i < |results| => ToPublic(results[i]))
  }

  /**
    A card points at the same thumbnail and full image the server announced
    when the file was uploaded.
  */
  lemma CardMatchesUploadResponse(item: SearchItem, f: Upload.UploadedFile)
    requires item.imagePath == f.storedName
    ensures ToPublic(item).thumbnail == Upload.InfoOf(f).thumbnail
    ensures ToPublic(item).fullImage == Upload.InfoOf(f).fullImage
  {
  }

  /** `xs.some(x => x.toLowerCase().includes(query.toLowerCase()))`. */
  predicate AnyMentions(xs: seq<string>, query: string) {
    exists i :: 0 <= i < |xs| && LikeContains(xs[i], query)
  }

  /** `matchesSearch` of `filteredAnalyses`. */
  predicate MatchesSearch(a: PublicAnalysis, query: string) {
    || query == ""
    || LikeContains(a.filename, query)
    || AnyMentions(a.objects, query)
    || AnyMentions(a.text, query)
  }

  /** `matchesType` of `filteredAnalyses`. */
  predicate MatchesType(a: PublicAnalysis, filterType: string) {
    filterType == All || a.analysisType == filterType
  }

  predicate Shown(a: PublicAnalysis, query: string, filterType: string) {
    MatchesSearch(a, query) && MatchesType(a, filterType)
  }

  /** `filteredAnalyses`: the cards matching the search text and the type filter, in order. */
  function FilteredAnalyses(cards: seq<PublicAnalysis>, query: string, filterType: string): (r: seq<PublicAnalysis>)
    ensures IsSubseq(r, cards)
    ensures forall i :: 0 <= i < |cards| ==> (cards[i] in r <==> Shown(cards[i], query, filterType))
    ensures forall x :: x in r ==> x in cards && Shown(x, query, filterType)
    ensures filterType != All ==> forall x :: x in r ==> x.analysisType == filterType
    ensures query == "" && filterType == All ==> r == cards
  {
    var shown := (a: PublicAnalysis) => Shown(a, query, filterType);
    FilterIsSubseq(shown, cards);
    assert query == "" && filterType == All ==> Filter(shown, cards) == cards by {
      if query == "" && filterType == All {
        FilterKeepsAll(shown, cards);
      }
    }
    Filter(shown, cards)
  }

  /** The search ignores ASCII case: it finds the same cards for a query and its lower-case form. */
  lemma SearchIgnoresCase(cards: seq<PublicAnalysis>, query: string, filterType: string)
    ensures FilteredAnalyses(cards, query, filterType) == FilteredAnalyses(cards, Lower(query), filterType)
  {
    LowerIdempotent(query);
    forall a: PublicAnalysis
      ensures Shown(a, query, filterType) == Shown(a, Lower(query), filterType)
    {
      if query != "" {
        assert |Lower(query)| == |query|;
      }
    }
    FilterSame((a: PublicAnalysis) => Shown(a, query, filterType),
               (a: PublicAnalysis) => Shown(a, Lower(query), filterType), cards);
  }

  /**
    Every card whose type is the selected one and whose file name contains the
    search text, ignoring ASCII case, is shown.
  */
  lemma FileNameHitIsShown(cards: seq<PublicAnalysis>, query: string, filterType: string, i: int)
    requires 0 <= i < |cards|
    requires LikeContains(cards[i].filename, query)
    requires filterType == All || cards[i].analysisType == filterType
    ensures cards[i] in FilteredAnalyses(cards, query, filterType)
  {
  }

  /**
    After a gallery search, the client-side filter with type `all` shows every
    card the server returned for the same text: each result has an object or a
    text line that mentions the query, ignoring ASCII case.
  */
  lemma ServerHitsPassClientFilter(db: Images, q: string)
    ensures var cards := Cards(Search(db, Some(q)).value.results);
      FilteredAnalyses(cards, q, All) == cards
  {
    var query := Lower(q);
    var results := Search(db, Some(q)).value.results;
    var cards := Cards(results);
    forall i | 0 <= i < |cards|
      ensures Shown(cards[i], q, All)
    {
      assert results[i] in results;
      var row :| row in db.rows && results[i] == Item(row) && Mentions(row, query);
      if SomeMentions(row.objects, query) {
        var k :| 0 <= k < |row.objects| && Contains(Lower(row.objects[k]), query);
        assert LikeContains(cards[i].objects[k], q);
      } else {
        var k :| 0 <= k < |row.text| && Contains(Lower(row.text[k]), query);
        assert LikeContains(cards[i].text[k], q);
      }
    }
    FilterKeepsAll((a: PublicAnalysis) => Shown(a, q, All), cards);
  }

  /** The name shown on a card: at most 25 characters and "...". */
  function CardTitle(name: string): (r: string)
    ensures |name| <= TitleLength ==> r == name
    ensures |name| > TitleLength ==> |r| == TitleLength + 3 && IsPrefix(r[..TitleLength], name) && r[TitleLength..] == "..."
  {
    Truncate(name, TitleLength)
  }
}

=== FILE: history.dfy ===
/**
  `GET /api/user/history` of backend/server.js: the caller's rows, narrowed by a
  free-text search and an analysis-type filter, newest first, one page at a time,
  with the count of all matching rows for the pagination bar.
*/
module History {
  import opened Wrappers
  import opened Text
  import opened Seqs
  import opened Archive

  /** `parseInt(req.query.page) || 1` and `parseInt(req.query.limit) || 20`. */
  const DefaultPage: nat := 1
  const DefaultLimit: nat := 20

  /**
    The query string as the handler reads it. `page` and `limit` are the values
    `parseInt` produced, with 0 standing for a missing, non-numeric or zero
    parameter (all of which fall back to the default). An empty `search` or
    `analysisType` means the filter is off.
  */
  datatype Query = Query(page: nat, limit: nat, search: string, analysisType: string)

  datatype Pagination = Pagination(page: nat, limit: nat, total: nat, totalPages: nat)

  datatype HistoryPage = HistoryPage(history: seq<Record>, pagination: Pagination)

  /** The text the type filter looks for: `"analysisType":"<type>"`, with the type inserted as given. */
  function TypeTag(t: string): string {
    "\"analysisType\":\"" + t + "\""
  }

  /** `analysis_data LIKE '%search%' OR image_info LIKE '%search%'`; a NULL column never matches. */
  predicate MatchesSearch(r: Record, search: string) {
    || search == ""
    || (r.analysisData.Some? && LikeContains(AnalysisJson(r.analysisData.value), search))
    || (r.imageInfo.Some? && LikeContains(ImageInfoJson(r.imageInfo.value), search))
  }

  /** `analysis_data LIKE '%"analysisType":"<type>"%'`. */
  predicate MatchesType(r: Record, t: string) {
    t == "" || (r.analysisData.Some? && LikeContains(AnalysisJson(r.analysisData.value), TypeTag(t)))
  }

  /** The WHERE clause shared by the page query and the count query. */
  predicate Listed(r: Record, userId: UserId, search: string, t: string) {
    r.userId == userId && MatchesSearch(r, search) && MatchesType(r, t)
  }

  function Matching(a: Archive, userId: UserId, search: string, t: string): seq<Record> {
    Filter((r: Record) => Listed(r, userId, search, t), a.records)
  }

  function SavedAt(r: Record): int {
    r.savedAt
  }

  /**
    `... ORDER BY saved_at DESC`. SQLite leaves the order of rows saved at the
    same instant unspecified; the model fixes the one `SortDesc` gives.
  */
  function Ordered(a: Archive, userId: UserId, search: string, t: string): seq<Record> {
    SortDesc(SavedAt, Matching(a, userId, search, t))
  }

  /** `Math.ceil(n / d)`. */
  function CeilDiv(n: nat, d: nat): (r: nat)
    requires d > 0
    ensures n == 0 ==> r == 0
    ensures n > 0 ==> (r - 1) * d < n <= r * d
  {
    (n + d - 1) / d
  }

  /** `LIMIT limit OFFSET offset` over an ordered result. */
  function Window<T>(s: seq<T>, offset: nat, limit: nat): (r: seq<T>)
    ensures |r| <= limit
    ensures |r| == if offset >= |s| then 0 else if offset + limit <= |s| then limit else |s| - offset
    ensures forall k :: 0 <= k < |r| ==> r[k] == s[offset + k]
  {
    if offset >= |s| then [] else if offset + limit <= |s| then s[offset..offset + limit] else s[offset..]
  }

  /** A window of a sorted sequence is sorted and holds only its elements. */
  lemma WindowOfSorted(s: seq<Record>, offset: nat, limit: nat)
    requires SortedDesc(SavedAt, s)
    ensures SortedDesc(SavedAt, Window(s, offset, limit))
    ensures forall x :: x in Window(s, offset, limit) ==> x in s
  {
    var w := Window(s, offset, limit);
    forall i, j | 0 <= i < j < |w|
      ensures SavedAt(w[i]) >= SavedAt(w[j])
    {
      assert w[i] == s[offset + i] && w[j] == s[offset + j];
    }
    forall x | x in w
      ensures x in s
    {
      var k :| 0 <= k < |w| && w[k] == x;
      assert s[offset + k] == x;
    }
  }

  function HasAnalysis(r: Record): bool {
    r.analysisData.Some?
  }

  /** The rows `Ordered` puts first all come from the table and pass the filters. */
  lemma OrderedRowsListed(a: Archive, userId: UserId, search: string, t: string)
    ensures forall x :: x in Ordered(a, userId, search, t) ==> x in a.records && Listed(x, userId, search, t)
  {
    var m := Matching(a, userId, search, t);
    forall x | x in Ordered(a, userId, search, t)
      ensures x in a.records && Listed(x, userId, search, t)
    {
      assert x in multiset(Ordered(a, userId, search, t));
      assert x in multiset(m);
    }
  }

  /**
    The rows shown for one page: the `LIMIT`/`OFFSET` window of the ordered
    rows, without those whose analysis does not parse.
  */
  function PageRows(ordered: seq<Record>, page: nat, limit: nat): (r: seq<Record>)
    requires page >= 1
    requires SortedDesc(SavedAt, ordered)
    ensures |r| <= limit
    ensures forall x :: x in r ==> x in ordered && x.analysisData.Some?
    ensures SortedDesc(SavedAt, r)
  {
    var rows := Window(ordered, (page - 1) * limit, limit);
    WindowOfSorted(ordered, (page - 1) * limit, limit);
    FilterKeepsSorted(SavedAt, HasAnalysis, rows);
    Filter(HasAnalysis, rows)
  }

  /**
    The response of `GET /api/user/history`. Rows whose `analysis_data` is NULL
    fail the handler's `JSON.parse(...).analysisType` step and are dropped from
    the page, although the count query still counts them.
  */
  function GetHistory(a: Archive, userId: UserId, q: Query): (r: HistoryPage)
    ensures q.page == 0 ==> r.pagination.page == DefaultPage
    ensures q.page != 0 ==> r.pagination.page == q.page
    ensures q.limit == 0 ==> r.pagination.limit == DefaultLimit
    ensures q.limit != 0 ==> r.pagination.limit == q.limit
    ensures forall x :: x in r.history ==>
      && x in a.records
      && x.userId == userId
      && MatchesSearch(x, q.search)
      && MatchesType(x, q.analysisType)
      && x.analysisData.Some?
    ensures SortedDesc(SavedAt, r.history)
    ensures |r.history| <= r.pagination.limit
    ensures r.pagination.total == Count((x: Record) => Listed(x, userId, q.search, q.analysisType), a.records)
  {
    var page := if q.page == 0 then DefaultPage else q.page;
    var limit := if q.limit == 0 then DefaultLimit else q.limit;
    OrderedRowsListed(a, userId, q.search, q.analysisType);
    FilterCount((x: Record) => Listed(x, userId, q.search, q.analysisType), a.records);
    var total := |Matching(a, userId, q.search, q.analysisType)|;
    HistoryPage(PageRows(Ordered(a, userId, q.search, q.analysisType), page, limit),
                Pagination(page, limit, total, CeilDiv(total, limit)))
  }

  /**
    `totalPages` is the least number of pages of `limit` rows that holds every
    matching row: none when nothing matches.
  */
  lemma PageCountCoversTotal(a: Archive, userId: UserId, q: Query)
    ensures var p := GetHistory(a, userId, q).pagination;
      Covers(p.total, p.limit, p.totalPages)
  {
    var p := GetHistory(a, userId, q).pagination;
    PaginationIsCeil(a, userId, q);
    CeilDivCovers(p.total, p.limit, p.totalPages);
  }

  lemma PaginationIsCeil(a: Archive, userId: UserId, q: Query)
    ensures var p := GetHistory(a, userId, q).pagination;
      p.limit > 0 && p.totalPages == CeilDiv(p.total, p.limit)
  {
  }

  /** `pages` pages of `d` rows hold `n` rows and one page fewer would not; no rows need no pages. */
  predicate Covers(n: nat, d: nat, pages: nat) {
    && (n == 0 ==> pages == 0)
    && (n > 0 ==> (pages - 1) * d < n <= pages * d)
  }

  lemma CeilDivCovers(n: nat, d: nat, pages: nat)
    requires d > 0 && pages == CeilDiv(n, d)
    ensures Covers(n, d, pages)
  {
  }

  /** The count and the page count depend on the filters only, never on the page asked for. */
  lemma TotalIndependentOfPage(a: Archive, userId: UserId, q: Query, otherPage: nat)
    ensures GetHistory(a, userId, q).pagination.total
         == GetHistory(a, userId, q.(page := otherPage)).pagination.total
    ensures GetHistory(a, userId, q).pagination.totalPages
         == GetHistory(a, userId, q.(page := otherPage)).pagination.totalPages
  {
  }

  /** What a `GetHistory` response is made of, named for the lemmas below. */
  lemma GetHistoryParts(a: Archive, userId: UserId, q: Query, page: nat, limit: nat)
    requires page == if q.page == 0 then DefaultPage else q.page
    requires limit == if q.limit == 0 then DefaultLimit else q.limit
    ensures GetHistory(a, userId, q).history == PageRows(Ordered(a, userId, q.search, q.analysisType), page, limit)
    ensures GetHistory(a, userId, q).pagination.total == |Ordered(a, userId, q.search, q.analysisType)|
  {
  }

  lemma PageRowsWhenAllParse(ordered: seq<Record>, page: nat, limit: nat)
    requires page >= 1
    requires SortedDesc(SavedAt, ordered)
    requires forall x :: x in ordered ==> x.analysisData.Some?
    ensures PageRows(ordered, page, limit) == Window(ordered, (page - 1) * limit, limit)
  {
    var rows := Window(ordered, (page - 1) * limit, limit);
    assert forall k :: 0 <= k < |rows| ==> rows[k] in ordered;
    FilterKeepsAll(HasAnalysis, rows);
  }

  lemma PageRowsKeep(ordered: seq<Record>, page: nat, limit: nat, k: nat)
    requires page >= 1
    requires SortedDesc(SavedAt, ordered)
    requires (page - 1) * limit <= k < page * limit
    requires k < |ordered| && ordered[k].analysisData.Some?
    ensures ordered[k] in PageRows(ordered, page, limit)
  {
    var offset := (page - 1) * limit;
    assert page * limit == offset + limit;
    var rows := Window(ordered, offset, limit);
    assert rows[k - offset] == ordered[k];
  }

  lemma OrderedAllParse(a: Archive, userId: UserId, search: string, t: string)
    requires forall x :: x in a.records && x.userId == userId ==> x.analysisData.Some?
    ensures forall x :: x in Ordered(a, userId, search, t) ==> x.analysisData.Some?
  {
    OrderedRowsListed(a, userId, search, t);
  }

  /**
    When every row of the user has a parsable analysis, a page is exactly the
    `LIMIT`/`OFFSET` window of the newest-first order starting at
    `offset = (page - 1) * limit` (so it holds `limit` rows unless the order runs out
    first), and the order holds exactly `total` rows.
  */
  lemma PageIsSlice(a: Archive, userId: UserId, search: string, t: string, page: nat, limit: nat, offset: nat)
    requires page >= 1 && limit >= 1 && offset == (page - 1) * limit
    requires forall x :: x in a.records && x.userId == userId ==> x.analysisData.Some?
    ensures var r := GetHistory(a, userId, Query(page, limit, search, t));
      && r.history == Window(Ordered(a, userId, search, t), offset, limit)
      && r.pagination.total == |Ordered(a, userId, search, t)|
  {
    var ordered := Ordered(a, userId, search, t);
    OrderedAllParse(a, userId, search, t);
    PageRowsWhenAllParse(ordered, page, limit);
    GetHistoryParts(a, userId, Query(page, limit, search, t), page, limit);
  }

  /** Scaling by a non-negative factor keeps `<=`. */
  lemma MulMonotone(x: int, y: int, d: nat)
    ensures x <= y ==> x * d <= y * d
  {
    if x <= y {
      assert y * d == x * d + (y - x) * d;
    }
  }

  /**
    The server returns rows only for a page within its own page count: past
    the last page the `LIMIT`/`OFFSET` window is empty. A request without a
    page is answered as page 1 and is covered too.
  */
  lemma NonEmptyPageWithinRange(a: Archive, userId: UserId, q: Query)
    ensures var r := GetHistory(a, userId, q);
      |r.history| > 0 ==> 1 <= r.pagination.page <= r.pagination.totalPages
  {
    var r := GetHistory(a, userId, q);
    var page := if q.page == 0 then DefaultPage else q.page;
    var limit := if q.limit == 0 then DefaultLimit else q.limit;
    var ordered := Ordered(a, userId, q.search, q.analysisType);
    GetHistoryParts(a, userId, q, page, limit);
    PageRowsInRange(ordered, page, limit);
    PageCountCoversTotal(a, userId, q);
    if |r.history| > 0 {
      PageBeforeEnd(page, limit, r.pagination.total, r.pagination.totalPages);
    }
  }

  /** A page with rows starts inside the ordered result. */
  lemma PageRowsInRange(ordered: seq<Record>, page: nat, limit: nat)
    requires page >= 1
    requires SortedDesc(SavedAt, ordered)
    ensures |PageRows(ordered, page, limit)| > 0 ==> (page - 1) * limit < |ordered|
  {
  }

  /** A page that starts before the last row is no later than the last page. */
  lemma PageBeforeEnd(page: nat, limit: nat, total: nat, pages: nat)
    requires page >= 1 && limit >= 1
    requires (page - 1) * limit < total
    requires Covers(total, limit, pages)
    ensures page <= pages
  {
    MulMonotone(pages, page - 1, limit);
  }

  /** Row `k` (counting from 0) belongs on page `k / limit + 1`. */
  lemma PageOfRow(k: nat, limit: nat)
    requires limit >= 1
    ensures var page := k / limit + 1;
      (page - 1) * limit <= k < page * limit
  {
    var p := k / limit;
    assert k == p * limit + k % limit;
    assert (p + 1) * limit == p * limit + limit;
  }

  /**
    Paging loses no parsable row: the row at position `k` of the newest-first
    order, when its analysis parses, is shown on the page whose window covers
    `k`, which by `PageOfRow` is page `k / limit + 1`. A row saved without an
    analysis is dropped from its page.
  */
  lemma RowOnItsPage(a: Archive, userId: UserId, search: string, t: string, page: nat, limit: nat, k: nat)
    requires page >= 1 && (page - 1) * limit <= k < page * limit
    requires k < |Ordered(a, userId, search, t)|
    requires Ordered(a, userId, search, t)[k].analysisData.Some?
    ensures Ordered(a, userId, search, t)[k] in GetHistory(a, userId, Query(page, limit, search, t)).history
  {
    var ordered := Ordered(a, userId, search, t);
    PageRowsKeep(ordered, page, limit, k);
    GetHistoryParts(a, userId, Query(page, limit, search, t), page, limit);
  }

  /**
    The type filter finds every row whose analysis carries that type, for a
    type name `JSON.stringify` writes verbatim.
  */
  lemma TypeFilterFindsType(r: Record, t: string)
    requires r.analysisData.Some? && r.analysisData.value.analysisType == t
    requires NoEscapes(t)
    ensures MatchesType(r, t)
  {
    var an := r.analysisData.value;
    EscapeVerbatim(t);
    assert TypeMember(t) == TypeTag(t);
    ContainsSelf(TypeTag(t));
    ContainsIsLike(TypeMember(t), TypeTag(t));
    LikeWiden(",\"text\":" + JsonStringArray(an.text) + ",\"faces\":" + an.faces + ",",
              TypeMember(t), an.rest + "}", TypeTag(t));
    LikeWiden("{\"objects\":" + JsonStringArray(an.objects), AnalysisJsonTail(an), "", TypeTag(t));
    assert AnalysisJson(an) == "{\"objects\":" + JsonStringArray(an.objects) + AnalysisJsonTail(an) + "";
  }

  /**
    The search finds every row whose original file name contains the search
    text, ignoring ASCII case, for search text `JSON.stringify` writes verbatim.
  */
  lemma SearchFindsFileName(r: Record, search: string)
    requires r.imageInfo.Some? && LikeContains(r.imageInfo.value.originalName, search)
    requires NoEscapes(search)
    ensures MatchesSearch(r, search)
  {
    var info := r.imageInfo.value;
    LikeJsonString(info.originalName, search);
    LikeWiden("{\"originalName\":", JsonString(info.originalName), ImageInfoAfterName(info), search);
  }

  /**
    The search finds every row one of whose detected objects contains the
    search text, ignoring ASCII case.
  */
  lemma SearchFindsObject(r: Record, search: string, k: int)
    requires r.analysisData.Some?
    requires 0 <= k < |r.analysisData.value.objects|
    requires LikeContains(r.analysisData.value.objects[k], search)
    requires NoEscapes(search)
    ensures MatchesSearch(r, search)
  {
    var an := r.analysisData.value;
    LikeJsonStringArray(an.objects, k, search);
    LikeWiden("{\"objects\":", JsonStringArray(an.objects), AnalysisJsonTail(an), search);
  }
}

=== FILE: historyview.dfy ===
/**
  The client-side state of frontend/src/components/UserHistory.tsx: the
  checkbox selection, the detail view with its previous/next navigation, the
  bookkeeping after a bulk delete, the search reset and the pagination bar.
  The page of rows on screen is what `GET /api/user/history` returned.
*/
module HistoryView {
  import opened Wrappers
  import opened Seqs
  import opened Text
  import opened Archive
  import History

  datatype ViewMode = Grid | Detail

  /** The component state the handlers below read and write. */
  datatype ViewState = ViewState(
    history: seq<Record>,
    selectedItems: seq<nat>,
    selectedAnalysis: Option<Record>,
    viewMode: ViewMode,
    page: nat,
    totalPages: nat,
    searchTerm: string)

  /** File names longer than this are cut on the history cards. */
  const TitleLength: nat := 30

  predicate NoDup(xs: seq<nat>) {
    forall i, j :: 0 <= i < j < |xs| ==> xs[i] != xs[j]
  }

  predicate DistinctIds(h: seq<Record>) {
    forall i, j :: 0 <= i < j < |h| ==> h[i].id != h[j].id
  }

  // ------------------------------------------------------------ selection

  /** `toggleSelectItem`: drop the id when it is selected, append it otherwise. */
  function ToggleSelect(items: seq<nat>, id: nat): (r: seq<nat>)
    ensures id in r <==> id !in items
    ensures forall x :: x != id ==> (x in r <==> x in items)
    ensures id !in items ==> r == items + [id]
    ensures NoDup(items) ==> NoDup(r)
  {
    if id in items then
      var r := Filter((x: nat) => x != id, items);
      assert NoDup(items) ==> NoDup(r) by {
        if NoDup(items) {
          var differ := (x: nat, y: nat) => x != y;
          assert Pairwise(differ, items);
          FilterKeepsPairwise(differ, (x: nat) => x != id, items);
        }
      }
      r
    else
      items + [id]
  }

  /** Toggling the same id twice restores which ids are selected. */
  lemma ToggleTwiceRestores(items: seq<nat>, id: nat)
    ensures forall x :: x in ToggleSelect(ToggleSelect(items, id), id) <==> x in items
    ensures id !in items ==> ToggleSelect(ToggleSelect(items, id), id) == items
  {
    if id !in items {
      var once := items + [id];
      var keep := (x: nat) => x != id;
      FilterConcat(keep, items, [id]);
      FilterKeepsAll(keep, items);
      assert Filter(keep, [id]) == [];
      assert items + [] == items;
    }
  }

  // ------------------------------------------------------------ navigation

  /** `history.findIndex(item => item.id === selectedAnalysis?.id)`; -1 when absent. */
  function FindIndex(history: seq<Record>, selected: Option<Record>): (i: int)
    ensures -1 <= i < |history|
    ensures i >= 0 ==> selected.Some? && history[i].id == selected.value.id
    ensures i >= 0 ==> forall j :: 0 <= j < i ==> history[j].id != selected.value.id
    ensures i == -1 <==> selected.None? || forall j :: 0 <= j < |history| ==> history[j].id != selected.value.id
  {
    if selected.None? then -1 else FindFrom(history, selected.value.id, 0)
  }

  function FindFrom(history: seq<Record>, id: nat, from: nat): (i: int)
    requires from <= |history|
    requires forall j :: 0 <= j < from ==> history[j].id != id
    ensures -1 <= i < |history|
    ensures i >= 0 ==> from <= i && history[i].id == id && forall j :: 0 <= j < i ==> history[j].id != id
    ensures i == -1 <==> forall j :: 0 <= j < |history| ==> history[j].id != id
    decreases |history| - from
  {
    if from == |history| then -1
    else if history[from].id == id then from
    else FindFrom(history, id, from + 1)
  }

  /** `hasPrevious`. */
  predicate HasPrevious(history: seq<Record>, selected: Option<Record>) {
    FindIndex(history, selected) > 0
  }

  /** `hasNext`. */
  predicate HasNext(history: seq<Record>, selected: Option<Record>) {
    FindIndex(history, selected) < |history| - 1
  }

  /** The "i of n" shown between the buttons: `currentIndex + 1`. */
  function Position(history: seq<Record>, selected: Option<Record>): (p: nat)
    ensures p == 0 <==> FindIndex(history, selected) == -1
    ensures p <= |history|
    ensures p > 0 ==> history[p - 1].id == selected.value.id
  {
    FindIndex(history, selected) + 1
  }

  /** `handleViewNext`: the row after the selected one, or the first row when the selection is not on the page. */
  function ViewNext(history: seq<Record>, selected: Option<Record>): (r: Option<Record>)
    ensures HasNext(history, selected) ==> r == Some(history[FindIndex(history, selected) + 1])
    ensures !HasNext(history, selected) ==> r == selected
    ensures FindIndex(history, selected) == -1 && |history| > 0 ==> r == Some(history[0])
  {
    var i := FindIndex(history, selected);
    if i < |history| - 1 then Some(history[i + 1]) else selected
  }

  /** `handleViewPrevious`. */
  function ViewPrevious(history: seq<Record>, selected: Option<Record>): (r: Option<Record>)
    ensures HasPrevious(history, selected) ==> r == Some(history[FindIndex(history, selected) - 1])
    ensures !HasPrevious(history, selected) ==> r == selected
  {
    var i := FindIndex(history, selected);
    if i > 0 then Some(history[i - 1]) else selected
  }

  /** On a page with distinct ids, the row at position `k` is found at `k`. */
  lemma FindsItsPosition(history: seq<Record>, k: int)
    requires DistinctIds(history) && 0 <= k < |history|
    ensures FindIndex(history, Some(history[k])) == k
  {
    var i := FindIndex(history, Some(history[k]));
    assert i != -1;
  }

  /** Each navigation button is enabled exactly when pressing it changes the selection. */
  lemma ButtonsEnabledIffTheyMove(history: seq<Record>, selected: Option<Record>)
    requires DistinctIds(history)
    ensures HasNext(history, selected) <==> ViewNext(history, selected) != selected
    ensures HasPrevious(history, selected) <==> ViewPrevious(history, selected) != selected
  {
    var i := FindIndex(history, selected);
    if HasNext(history, selected) && i >= 0 {
      assert history[i + 1].id != history[i].id;
    }
    if HasPrevious(history, selected) {
      assert history[i - 1].id != history[i].id;
    }
  }

  /** Next then Previous returns to the row the user started from. */
  lemma NextThenPreviousReturns(history: seq<Record>, k: int)
    requires DistinctIds(history) && 0 <= k < |history| - 1
    ensures ViewPrevious(history, ViewNext(history, Some(history[k]))) == Some(history[k])
  {
    FindsItsPosition(history, k);
    FindsItsPosition(history, k + 1);
  }

  /** Walking with Next from the first row visits the rows in page order, ending on the last. */
  lemma NextWalksThePage(history: seq<Record>, k: int)
    requires DistinctIds(history) && 0 <= k < |history|
    ensures Position(history, Some(history[k])) == k + 1
    ensures k == |history| - 1 <==> !HasNext(history, Some(history[k]))
    ensures k == 0 <==> !HasPrevious(history, Some(history[k]))
  {
    FindsItsPosition(history, k);
  }

  // ------------------------------------------------------------ loading

  /** The client's page size: the initial `pagination.limit`. */
  const ClientLimit: nat := 12

  /** The history request `loadHistory` makes for a view state: page, page size and search text, no type filter. */
  function Request(v: ViewState): (q: History.Query)
    ensures q.page == v.page && q.limit == ClientLimit && q.search == v.searchTerm && q.analysisType == ""
  {
    History.Query(v.page, ClientLimit, v.searchTerm, "")
  }

  /**
    What a successful `loadHistory` response does: the rows on screen and the
    page counters become the server's; the selection, the detail view and the
    search text are left alone.
  */
  function Loaded(v: ViewState, r: History.HistoryPage): (w: ViewState)
    ensures w.history == r.history
    ensures w.page == r.pagination.page && w.totalPages == r.pagination.totalPages
    ensures w.(history := v.history, page := v.page, totalPages := v.totalPages) == v
  {
    v.(history := r.history, page := r.pagination.page, totalPages := r.pagination.totalPages)
  }

  /** `loadHistory()` for the page and search text of `v`, answered from the table `a`. */
  function Reload(v: ViewState, a: Archive, userId: UserId): ViewState {
    Loaded(v, History.GetHistory(a, userId, Request(v)))
  }

  /**
    On a table where every row of the caller parses, a page within the page
    count of a non-empty result has rows.
  */
  lemma PageWithinRangeHasRows(a: Archive, userId: UserId, search: string, page: nat)
    requires page >= 1
    requires forall x :: x in a.records && x.userId == userId ==> x.analysisData.Some?
    ensures var r := History.GetHistory(a, userId, History.Query(page, ClientLimit, search, ""));
      r.pagination.total > 0 && page <= r.pagination.totalPages ==> |r.history| > 0
  {
    var q := History.Query(page, ClientLimit, search, "");
    var r := History.GetHistory(a, userId, q);
    History.PageIsSlice(a, userId, search, "", page, ClientLimit, (page - 1) * 12);
    History.PaginationIsCeil(a, userId, q);
    History.CeilDivCovers(r.pagination.total, 12, r.pagination.totalPages);
  }

  // ------------------------------------------------------------ bulk delete

  /** The table after a delete, the client state after its reload, and the id list sent, if any. */
  datatype DeleteOutcome = DeleteOutcome(view: ViewState, archive: Archive, sent: Option<seq<nat>>)

  function AsInts(ids: seq<nat>): (r: seq<int>)
    ensures |r| == |ids|
    ensures forall i :: 0 <= i < |ids| ==> r[i] == ids[i] as int
  {
    seq(|ids|, i requires 0 <= i < |ids| => ids[i] as int)
  }

  /**
    `handleBulkDelete`: nothing happens without a selection or when the user
    cancels the confirmation. Otherwise the selection is sent; when the request
    fails nothing changes. After a successful delete the selection is cleared,
    a detail view of a deleted row is closed, and `loadHistory()` reloads the
    same page with the same search text from the table as the delete left it.
  */
  function BulkDeleteView(v: ViewState, a: Archive, userId: UserId, confirmed: bool, succeeded: bool): (r: DeleteOutcome)
    ensures |v.selectedItems| == 0 || !confirmed ==> r == DeleteOutcome(v, a, None)
    ensures |v.selectedItems| > 0 && confirmed ==>
      && r.sent == Some(v.selectedItems)
      && BulkDelete(a, userId, Some(AsInts(v.selectedItems))).Success?
    ensures !succeeded ==> r.view == v && r.archive == a
    ensures |v.selectedItems| > 0 && confirmed && succeeded ==>
      var page := History.GetHistory(r.archive, userId, Request(v));
      && r.archive == BulkDelete(a, userId, Some(AsInts(v.selectedItems))).value.0
      && r.view.selectedItems == []
      && r.view.history == page.history
      && r.view.page == page.pagination.page && r.view.totalPages == page.pagination.totalPages
      && r.view.searchTerm == v.searchTerm
      && (forall x :: x in r.view.history ==> x.id !in v.selectedItems)
      && (v.selectedAnalysis.Some? && v.selectedAnalysis.value.id in v.selectedItems ==>
            r.view.selectedAnalysis.None? && r.view.viewMode == Grid)
      && (v.selectedAnalysis.None? || v.selectedAnalysis.value.id !in v.selectedItems ==>
            r.view.selectedAnalysis == v.selectedAnalysis && r.view.viewMode == v.viewMode)
  {
    if |v.selectedItems| == 0 || !confirmed then DeleteOutcome(v, a, None)
    else
      var ids := AsInts(v.selectedItems);
      var res := BulkDelete(a, userId, Some(ids));
      if !succeeded || res.Failure? then DeleteOutcome(v, a, Some(v.selectedItems))
      else
        var after := res.value.0;
        var cleared := v.(selectedItems := []);
        var closed := if v.selectedAnalysis.Some? && v.selectedAnalysis.value.id in v.selectedItems
          then cleared.(selectedAnalysis := None, viewMode := Grid) else cleared;
        var w := Reload(closed, after, userId);
        assert forall x :: x in w.history ==> x.id !in v.selectedItems by {
          forall k | 0 <= k < |v.selectedItems|
            ensures v.selectedItems[k] as int in ids
          {
            assert ids[k] == v.selectedItems[k] as int;
          }
        }
        DeleteOutcome(w, after, Some(v.selectedItems))
  }

  /**
    The client only sends a bulk delete with a non-empty selection, so the
    server never answers it with "Analysis IDs array required", and every
    selected row of the caller is gone afterwards.
  */
  lemma SentDeleteIsAccepted(v: ViewState, a: Archive, userId: UserId, i: int)
    requires BulkDeleteView(v, a, userId, true, true).sent.Some?
    requires 0 <= i < |a.records| && a.records[i].userId == userId && a.records[i].id in v.selectedItems
    ensures BulkDelete(a, userId, Some(AsInts(v.selectedItems))).Success?
    ensures a.records[i] !in BulkDeleteView(v, a, userId, true, true).archive.records
  {
    var ids := AsInts(v.selectedItems);
    var k :| 0 <= k < |v.selectedItems| && v.selectedItems[k] == a.records[i].id;
    assert ids[k] == a.records[i].id as int;
    assert Doomed(a.records[i], userId, ids);
  }

  /**
    As written, a delete that empties the last page strands the client past
    the end: the reload asks for the same page, which no longer exists, so the
    list is empty, "No analyses found" is shown and the pagination bar is not,
    although the caller still has matching rows on earlier pages. With 13 rows
    at 12 a page, deleting the one row on page 2 is such a case.
  */
  lemma DeleteCanStrandPage(v: ViewState, a: Archive, userId: UserId)
    requires v.page >= 1 && |v.selectedItems| > 0
    requires var after := BulkDeleteView(v, a, userId, true, true).archive;
      0 < |History.Ordered(after, userId, v.searchTerm, "")| <= (v.page - 1) * 12
    ensures var o := BulkDeleteView(v, a, userId, true, true);
      && o.view.history == []
      && !ShowPagination(o.view)
      && o.view.page > o.view.totalPages >= 1
  {
    var o := BulkDeleteView(v, a, userId, true, true);
    var q := Request(v);
    History.GetHistoryParts(o.archive, userId, q, v.page, ClientLimit);
    History.PaginationIsCeil(o.archive, userId, q);
    var p := History.GetHistory(o.archive, userId, q).pagination;
    History.CeilDivCovers(p.total, 12, p.totalPages);
  }

  /**
    The delete with the last page kept in view: when the reload comes back for
    a page past the end of a non-empty result, the client moves to the last
    page and loads that.
  */
  function BulkDeleteViewClamped(v: ViewState, a: Archive, userId: UserId, confirmed: bool, succeeded: bool): (r: DeleteOutcome)
    ensures var o := BulkDeleteView(v, a, userId, confirmed, succeeded);
      && r.archive == o.archive && r.sent == o.sent
      && r.view.selectedItems == o.view.selectedItems
      && r.view.selectedAnalysis == o.view.selectedAnalysis && r.view.viewMode == o.view.viewMode
      && r.view.searchTerm == o.view.searchTerm
      && (o.view.page <= o.view.totalPages ==> r == o)
  {
    var o := BulkDeleteView(v, a, userId, confirmed, succeeded);
    if o.view.page > o.view.totalPages >= 1 then
      o.(view := Reload(o.view.(page := o.view.totalPages), o.archive, userId))
    else o
  }

  /**
    With the last page kept in view, a successful delete never leaves an empty
    list while the caller still has matching rows: the page shown is within
    the page count and has rows.
  */
  lemma ClampedDeleteShowsRows(v: ViewState, a: Archive, userId: UserId)
    requires v.page >= 1 && |v.selectedItems| > 0
    requires forall x :: x in a.records && x.userId == userId ==> x.analysisData.Some?
    ensures var o := BulkDeleteViewClamped(v, a, userId, true, true);
      |History.Ordered(o.archive, userId, v.searchTerm, "")| > 0 ==>
        && 1 <= o.view.page <= o.view.totalPages
        && |o.view.history| > 0
  {
    var o := BulkDeleteView(v, a, userId, true, true);
    var after := o.archive;
    assert forall x :: x in after.records && x.userId == userId ==> x.analysisData.Some?;
    var q := Request(v);
    History.GetHistoryParts(after, userId, q, v.page, ClientLimit);
    var tp := o.view.totalPages;
    if o.view.page > tp >= 1 {
      var q' := History.Query(tp, ClientLimit, v.searchTerm, "");
      History.TotalIndependentOfPage(after, userId, q, tp);
      History.GetHistoryParts(after, userId, q', tp, ClientLimit);
      PageWithinRangeHasRows(after, userId, v.searchTerm, tp);
    } else {
      PageWithinRangeHasRows(after, userId, v.searchTerm, v.page);
      History.PaginationIsCeil(after, userId, q);
    }
  }

  // ------------------------------------------------------------ search

  /** `handleSearch`: the list restarts at page 1. */
  function SubmitSearch(v: ViewState): (r: ViewState)
    ensures r.page == 1
    ensures r.(page := v.page) == v
  {
    v.(page := 1)
  }

  /**
    The requests a search sends before any response arrives, in the order they
    are sent: the handler's own `loadHistory()`, whose closure still holds the
    page from before the reset, then, when the reset changed the page, the
    effect's request for page 1. Both carry the text in the search box.
  */
  function SearchRequests(v: ViewState): (qs: seq<History.Query>)
    ensures 1 <= |qs| <= 2 && (|qs| == 1 <==> v.page == 1)
    ensures qs[0] == Request(v)
    ensures qs[|qs| - 1] == History.Query(1, ClientLimit, v.searchTerm, "")
    ensures forall q :: q in qs ==> q.search == v.searchTerm
  {
    [Request(v)] + if v.page != 1 then [Request(SubmitSearch(v))] else []
  }

  /**
    Of the requests a search sends before any response arrives, the last is
    for page 1 with the new text, and it returns the first twelve rows of the
    newest-first matching order. From page 1 it is the only request; from a
    later page the responses undo the reset (`FirstResponseRestoresPage`).
  */
  lemma SearchRestartsAtNewest(v: ViewState, a: Archive, userId: UserId)
    requires forall x :: x in a.records && x.userId == userId ==> x.analysisData.Some?
    ensures var qs := SearchRequests(v);
      History.GetHistory(a, userId, qs[|qs| - 1]).history
        == History.Window(History.Ordered(a, userId, v.searchTerm, ""), 0, ClientLimit)
  {
    History.PageIsSlice(a, userId, v.searchTerm, "", 1, ClientLimit, 0);
  }

  /** The Clear button's state change: empty search text, page 1. */
  function ClearSearch(v: ViewState): (r: ViewState)
    ensures r.page == 1 && r.searchTerm == ""
    ensures r.(page := v.page, searchTerm := v.searchTerm) == v
  {
    v.(page := 1, searchTerm := "")
  }

  /**
    The requests the Clear button sends before any response arrives, as
    written: its `loadHistory()`
    runs in the closure of the render before the click, so it sends the OLD
    page and the OLD search text; only when the page changes does the effect
    send page 1 without text.
  */
  function ClearRequests(v: ViewState): (qs: seq<History.Query>)
    ensures 1 <= |qs| <= 2 && (|qs| == 1 <==> v.page == 1)
    ensures qs[0] == Request(v)
    ensures v.page != 1 ==> qs[1] == History.Query(1, ClientLimit, "", "")
  {
    [Request(v)] + if v.page != 1 then [Request(ClearSearch(v))] else []
  }

  /**
    As written, a search or a Clear started on a page after the first never
    settles on page 1. The handler's own request asks for the old page, the
    server echoes that page, and merging the response into the pagination
    state puts the old page back; the page change re-runs the effect, which
    requests the old page again. Searching from page 3 is such a case.
  */
  lemma FirstResponseRestoresPage(v: ViewState, a: Archive, userId: UserId)
    requires v.page > 1
    ensures Loaded(SubmitSearch(v), History.GetHistory(a, userId, SearchRequests(v)[0])).page == v.page
    ensures Loaded(ClearSearch(v), History.GetHistory(a, userId, ClearRequests(v)[0])).page == v.page
  {
  }

  /**
    The search as evidently intended: the handler's own request already asks
    for page 1 (as if `loadHistory` were given the new page), and so does the
    effect's request when the page changes.
  */
  function SearchRequestsFixed(v: ViewState): (qs: seq<History.Query>)
    ensures 1 <= |qs| <= 2 && (|qs| == 1 <==> v.page == 1)
    ensures forall q :: q in qs ==> q == Request(SubmitSearch(v))
  {
    [Request(SubmitSearch(v))] + if v.page != 1 then [Request(SubmitSearch(v))] else []
  }

  /**
    With the corrected search, every response leaves the client on page 1,
    so the page does not change again and the effect does not fire again.
  */
  lemma SearchFixedStaysOnFirstPage(v: ViewState, a: Archive, userId: UserId)
    ensures forall q :: q in SearchRequestsFixed(v) ==>
      Loaded(SubmitSearch(v), History.GetHistory(a, userId, q)).page == 1
  {
  }

  /**
    When every row of the user has a parsable analysis, the corrected search
    also shows the twelve newest matching rows, whichever response arrives
    last. A row saved without an analysis is dropped from the page, so
    without that condition the page may hold fewer.
  */
  lemma SearchFixedSettlesOnFirstPage(v: ViewState, a: Archive, userId: UserId)
    requires forall x :: x in a.records && x.userId == userId ==> x.analysisData.Some?
    ensures forall q :: q in SearchRequestsFixed(v) ==>
      var w := Loaded(SubmitSearch(v), History.GetHistory(a, userId, q));
      && w.page == 1
      && w.history == History.Window(History.Ordered(a, userId, v.searchTerm, ""), 0, ClientLimit)
  {
    History.PageIsSlice(a, userId, v.searchTerm, "", 1, ClientLimit, 0);
  }

  /**
    As written, Clear on page 1 does not clear the list: the search box empties
    and the Clear button disappears, but the only request sent still carries
    the old text, so every row that does not match it stays hidden. Searching
    "cat" on page 1 and pressing Clear is such a case.
  */
  lemma ClearOnFirstPageKeepsFilter(v: ViewState, a: Archive, userId: UserId)
    requires v.page == 1 && v.searchTerm != ""
    ensures ClearSearch(v).searchTerm == ""
    ensures ClearRequests(v) == [History.Query(1, ClientLimit, v.searchTerm, "")]
    ensures forall x :: x in a.records && x.userId == userId && !History.MatchesSearch(x, v.searchTerm) ==>
      x !in History.GetHistory(a, userId, ClearRequests(v)[0]).history
  {
  }

  /**
    The Clear button as evidently intended: the handler's own request carries
    page 1 and no text (as if `loadHistory` were given the new values), and so
    does the effect's request when the page changes.
  */
  function ClearRequestsFixed(v: ViewState): (qs: seq<History.Query>)
    ensures 1 <= |qs| <= 2 && (|qs| == 1 <==> v.page == 1)
    ensures forall q :: q in qs ==> q == Request(ClearSearch(v))
  {
    [Request(ClearSearch(v))] + if v.page != 1 then [Request(ClearSearch(v))] else []
  }

  /**
    With the corrected Clear, every response leaves the client on page 1.
    Every request it sends is the same (`ClearRequestsFixed`), so whichever
    response arrives last, when every row of the user has a parsable
    analysis the list shows the caller's twelve newest rows, unfiltered.
  */
  lemma ClearShowsNewest(v: ViewState, a: Archive, userId: UserId)
    ensures forall q :: q in ClearRequestsFixed(v) ==>
      Loaded(ClearSearch(v), History.GetHistory(a, userId, q)).page == 1
    ensures (forall x :: x in a.records && x.userId == userId ==> x.analysisData.Some?) ==>
      Loaded(ClearSearch(v), History.GetHistory(a, userId, Request(ClearSearch(v)))).history
        == History.Window(History.Ordered(a, userId, "", ""), 0, ClientLimit)
  {
    if forall x :: x in a.records && x.userId == userId ==> x.analysisData.Some? {
      History.PageIsSlice(a, userId, "", "", 1, ClientLimit, 0);
    }
  }

  // ------------------------------------------------------------ pagination bar

  /**
    The bar is drawn only in the branch for a non-empty list (an empty list
    shows "No analyses found" instead), and only when there is more than one
    page.
  */
  predicate ShowPagination(v: ViewState) {
    |v.history| > 0 && v.totalPages > 1
  }

  /** `disabled={pagination.page === 1}`. */
  predicate PreviousDisabled(page: nat) {
    page == 1
  }

  /** `disabled={pagination.page === pagination.totalPages}`. */
  predicate NextDisabled(page: nat, totalPages: nat) {
    page == totalPages
  }

  /** The Next button: one page on unless it is disabled. */
  function ClickNext(page: nat, totalPages: nat): (r: nat)
    ensures r == page || r == page + 1
    ensures r == page <==> NextDisabled(page, totalPages)
  {
    if NextDisabled(page, totalPages) then page else page + 1
  }

  /** The Previous button. */
  function ClickPrevious(page: nat): (r: nat)
    requires page >= 1
    ensures r >= 1
    ensures page > 1 ==> r == page - 1
    ensures r == page <==> PreviousDisabled(page)
  {
    if PreviousDisabled(page) then page else page - 1
  }

  /** Previous undoes Next wherever Next is enabled. */
  lemma PreviousUndoesNext(page: nat, totalPages: nat)
    requires 1 <= page < totalPages
    ensures ClickPrevious(ClickNext(page, totalPages)) == page
  {
  }

  /**
    Wherever the bar is drawn after a load, its page lies within the page
    count, so the `page === totalPages` test disables Next exactly on the last
    page and Next never leads past it.
  */
  lemma NextStaysWithinPages(v: ViewState, a: Archive, userId: UserId, q: History.Query)
    ensures var w := Loaded(v, History.GetHistory(a, userId, q));
      ShowPagination(w) ==>
        && 1 <= w.page <= w.totalPages
        && (NextDisabled(w.page, w.totalPages) <==> w.page >= w.totalPages)
        && ClickNext(w.page, w.totalPages) <= w.totalPages
        && (ClickNext(w.page, w.totalPages) == w.page + 1 <==> w.page < w.totalPages)
  {
    History.NonEmptyPageWithinRange(a, userId, q);
  }

  // ------------------------------------------------------------ cards

  /** The name shown on a history card: at most 30 characters and "...". */
  function CardTitle(name: string): (r: string)
    ensures |name| <= TitleLength ==> r == name
    ensures |name| > TitleLength ==> |r| == TitleLength + 3 && IsPrefix(r[..TitleLength], name) && r[TitleLength..] == "..."
  {
    Truncate(name, TitleLength)
  }
}

=== FILE: kinds.dfy ===
/**
  The analysis types both classifiers produce (the server's
  `getAnalysisTypeFromAzure` and the gallery's `getAnalysisType`), the order in
  which their rules are tried, and what "the first rule that fires wins" means.
*/
module AnalysisKinds {

  const Portrait: string := "portrait"
  const Landscape: string := "landscape"
  const Urban: string := "urban"
  const Food: string := "food"
  const Animal: string := "animal"
  const Document: string := "document"
  const General: string := "general"

  /** The gallery's filter value that switches the type filter off. */
  const All: string := "all"

  /** The classifiers' rules in the order they are tried; `general` is the fallback. */
  const Ranked: seq<string> := [Portrait, Landscape, Urban, Food, Animal, Document]

  /** The type values the gallery offers besides `all`. */
  const AnalysisTypes: set<string> := {Portrait, Landscape, Urban, Food, Animal, Document, General}

  /**
    `r` is what a first-match classifier answers when `fires(k)` says whether
    the rule for type `k` fires: the first type of `Ranked` whose rule fires,
    or `general` when none does.
  */
  predicate PicksFirstFiring(fires: string -> bool, r: string) {
    || (r == General && forall i :: 0 <= i < |Ranked| ==> !fires(Ranked[i]))
    || (exists i :: 0 <= i < |Ranked| && r == Ranked[i] && fires(Ranked[i])
                    && forall j :: 0 <= j < i ==> !fires(Ranked[j]))
  }

  /** Conditions under which the first-match answer is the `i`-th ranked type, or `general`. */
  lemma PickRanked(fires: string -> bool, i: int)
    requires 0 <= i < |Ranked| && fires(Ranked[i])
    requires forall j :: 0 <= j < i ==> !fires(Ranked[j])
    ensures PicksFirstFiring(fires, Ranked[i])
  {
  }

  lemma PickGeneral(fires: string -> bool)
    requires forall i :: 0 <= i < |Ranked| ==> !fires(Ranked[i])
    ensures PicksFirstFiring(fires, General)
  {
  }

  /** The answer of a first-match classifier, the rules tried in `Ranked` order. */
  function FirstFiring(fires: string -> bool): string {
    if fires(Portrait) then Portrait
    else if fires(Landscape) then Landscape
    else if fires(Urban) then Urban
    else if fires(Food) then Food
    else if fires(Animal) then Animal
    else if fires(Document) then Document
    else General
  }

  /** Trying the rules in order picks the first type whose rule fires. */
  lemma FirstFiringPicks(fires: string -> bool)
    ensures PicksFirstFiring(fires, FirstFiring(fires))
  {
    assert Ranked[0] == Portrait && Ranked[1] == Landscape && Ranked[2] == Urban;
    assert Ranked[3] == Food && Ranked[4] == Animal && Ranked[5] == Document;
    if fires(Portrait) {
      PickRanked(fires, 0);
    } else if fires(Landscape) {
      PickRanked(fires, 1);
    } else if fires(Urban) {
      PickRanked(fires, 2);
    } else if fires(Food) {
      PickRanked(fires, 3);
    } else if fires(Animal) {
      PickRanked(fires, 4);
    } else if fires(Document) {
      PickRanked(fires, 5);
    } else {
      PickGeneral(fires);
    }
  }

  /** The ranked types are pairwise different and none is `general` or `all`. */
  lemma RankedDistinct()
    ensures forall i, j :: 0 <= i < j < |Ranked| ==> Ranked[i] != Ranked[j]
    ensures forall i :: 0 <= i < |Ranked| ==> Ranked[i] != General && Ranked[i] != All
    ensures forall i :: 0 <= i < |Ranked| ==> Ranked[i] in AnalysisTypes
  {
  }

  /** "First rule that fires" determines the answer: a classifier meeting it is unique. */
  lemma FirstFiringUnique(fires: string -> bool, r1: string, r2: string)
    requires PicksFirstFiring(fires, r1) && PicksFirstFiring(fires, r2)
    ensures r1 == r2
  {
    RankedDistinct();
    if r1 != General {
      var i :| 0 <= i < |Ranked| && r1 == Ranked[i] && fires(Ranked[i]) && forall j :: 0 <= j < i ==> !fires(Ranked[j]);
      if r2 != General {
        var k :| 0 <= k < |Ranked| && r2 == Ranked[k] && fires(Ranked[k]) && forall j :: 0 <= j < k ==> !fires(Ranked[j]);
        assert !(i < k) && !(k < i);
      }
    }
  }

  /** A first-match answer is always one of the seven analysis types. */
  lemma FirstFiringIsType(fires: string -> bool, r: string)
    requires PicksFirstFiring(fires, r)
    ensures r in AnalysisTypes && r != All
  {
    RankedDistinct();
  }
}

=== FILE: paths.dfy ===
/**
  The public URLs under which a stored upload is served. The server builds them
  when it records an upload (backend/server.js) and the gallery builds the same
  ones from a search result's `imagePath` (DiscoverGallery.tsx).
*/
module Paths {
  import opened Wrappers
  import opened Text

  const UploadsPrefix: string := "/uploads/"
  const ThumbPrefix: string := "/uploads/thumb-"

  /** URL of the 200x200 thumbnail generated for a stored file. */
  function ThumbnailPath(storedName: string): string {
    ThumbPrefix + storedName
  }

  /** URL of the stored file itself. */
  function FullImagePath(storedName: string): string {
    UploadsPrefix + storedName
  }

  /** Reads the stored file name back out of a thumbnail URL. */
  function StoredNameOfThumbnail(p: string): (r: Option<string>)
    ensures r.Some? ==> ThumbnailPath(r.value) == p
    ensures r.None? ==> !IsPrefix(ThumbPrefix, p)
  {
    if IsPrefix(ThumbPrefix, p) then Some(p[|ThumbPrefix|..]) else None
  }

  /** Thumbnail URLs determine the file they were built from. */
  lemma ThumbnailRoundTrip(storedName: string)
    ensures StoredNameOfThumbnail(ThumbnailPath(storedName)) == Some(storedName)
  {
    var p := ThumbnailPath(storedName);
    assert p[..|ThumbPrefix|] == ThumbPrefix;
    assert p[|ThumbPrefix|..] == storedName;
  }

  /** The thumbnail sits beside the full image in the same served directory. */
  lemma ThumbnailIsUpload(storedName: string)
    ensures ThumbnailPath(storedName) == FullImagePath("thumb-" + storedName)
    ensures IsPrefix(UploadsPrefix, ThumbnailPath(storedName))
  {
    assert ThumbPrefix == UploadsPrefix + "thumb-";
    assert ThumbnailPath(storedName)[..|UploadsPrefix|] == UploadsPrefix;
  }
}

=== FILE: search.dfy ===
/**
  The `images` table the upload handler fills and `GET /api/search` of
  backend/server.js, which the public gallery also uses to list every image.
*/
module ImageSearch {
  import opened Wrappers
  import opened Text
  import opened Seqs

  /**
    One row of `images`. `objects` and `text` are the arrays whose
    `JSON.stringify` text the columns hold; `faces` is kept as column text.
    `userId` is NULL for anonymous uploads.
  */
  datatype ImageRow = ImageRow(
    id: nat,
    filename: string,
    uploadDate: int,
    objects: seq<string>,
    text: seq<string>,
    faces: string,
    imagePath: string,
    userId: Option<nat>)

  datatype Images = Images(rows: seq<ImageRow>, nextId: nat)

  /**
    Ids are positive, below the AUTOINCREMENT counter, and distinct: the
    guarantees of `INTEGER PRIMARY KEY AUTOINCREMENT`.
  */
  predicate Valid(db: Images) {
    && 1 <= db.nextId
    && (forall i :: 0 <= i < |db.rows| ==> 1 <= db.rows[i].id < db.nextId)
    && (forall i, j :: 0 <= i < j < |db.rows| ==> db.rows[i].id != db.rows[j].id)
  }

  /**
    `INSERT INTO images ...`: one new row at the end, holding the given
    columns under an id no existing row has; the rows already there are
    untouched.
  */
  function AddImage(db: Images, filename: string, uploadDate: int, objects: seq<string>, text: seq<string>,
                    faces: string, imagePath: string, userId: Option<nat>): (r: Images)
    ensures |r.rows| == |db.rows| + 1 && r.rows[..|db.rows|] == db.rows
    ensures var row := r.rows[|db.rows|];
      && row.filename == filename && row.uploadDate == uploadDate && row.objects == objects
      && row.text == text && row.faces == faces && row.imagePath == imagePath && row.userId == userId
    ensures Valid(db) ==> Valid(r)
    ensures Valid(db) ==> forall i :: 0 <= i < |db.rows| ==> db.rows[i].id != r.rows[|db.rows|].id
  {
    var row := ImageRow(db.nextId, filename, uploadDate, objects, text, faces, imagePath, userId);
    assert (db.rows + [row])[..|db.rows|] == db.rows;
    Images(db.rows + [row], db.nextId + 1)
  }

  /** One entry of `results`: the row without its owner. */
  datatype SearchItem = SearchItem(
    id: nat,
    filename: string,
    objects: seq<string>,
    text: seq<string>,
    faces: string,
    uploadDate: int,
    imagePath: string)

  datatype SearchResponse = SearchResponse(query: string, results: seq<SearchItem>, count: nat)

  /** `req.query.q.toLowerCase()` throws when `q` is absent; the request then fails. */
  datatype SearchError = QueryMissing

  function Item(row: ImageRow): SearchItem {
    SearchItem(row.id, row.filename, row.objects, row.text, row.faces, row.uploadDate, row.imagePath)
  }

  /** `objects_detected LIKE '%q%' OR text_extracted LIKE '%q%'` on the column text. */
  predicate ColumnsMatch(row: ImageRow, query: string) {
    LikeContains(JsonStringArray(row.objects), query) || LikeContains(JsonStringArray(row.text), query)
  }

  /** `xs.some(x => x.toLowerCase().includes(query))`. */
  predicate SomeMentions(xs: seq<string>, query: string) {
    exists i :: 0 <= i < |xs| && Contains(Lower(xs[i]), query)
  }

  /** The post-filter on the parsed rows: some object or some text line mentions the query. */
  predicate Mentions(row: ImageRow, query: string) {
    SomeMentions(row.objects, query) || SomeMentions(row.text, query)
  }

  function Items(rows: seq<ImageRow>): (r: seq<SearchItem>)
    ensures |r| == |rows|
    ensures forall i :: 0 <= i < |rows| ==> r[i] == Item(rows[i])
  {
    seq(|rows|, i requires 0 <= i < |rows| => Item(rows[i]))
  }

  /** The rows the SQL prefilter selects, in table order. */
  function Prefiltered(db: Images, query: string): (r: seq<ImageRow>)
    ensures forall x :: x in r ==> x in db.rows && ColumnsMatch(x, query)
    ensures forall i :: 0 <= i < |db.rows| && ColumnsMatch(db.rows[i], query) ==> db.rows[i] in r
    ensures IsSubseq(r, db.rows)
  {
    FilterIsSubseq((row: ImageRow) => ColumnsMatch(row, query), db.rows);
    Filter((row: ImageRow) => ColumnsMatch(row, query), db.rows)
  }

  /** The prefiltered rows the post-filter keeps, in table order. */
  function HitRows(db: Images, query: string): (r: seq<ImageRow>)
    ensures forall x :: x in r ==> x in db.rows && ColumnsMatch(x, query) && Mentions(x, query)
    ensures forall x :: x in db.rows && ColumnsMatch(x, query) && Mentions(x, query) ==> x in r
    ensures IsSubseq(r, db.rows)
  {
    var inner := Prefiltered(db, query);
    var r := Filter((row: ImageRow) => Mentions(row, query), inner);
    forall x | x in db.rows && ColumnsMatch(x, query) && Mentions(x, query)
      ensures x in r
    {
      var j :| 0 <= j < |inner| && inner[j] == x;
    }
    FilterIsSubseq((row: ImageRow) => Mentions(row, query), inner);
    SubseqTrans(r, inner, db.rows);
    r
  }

  /**
    The rows `GET /api/search?q=...` returns, in table order: those the SQL
    prefilter selects whose parsed objects or text lines mention the
    lower-cased query.
  */
  function Search(db: Images, q: Option<string>): (r: Result<SearchResponse, SearchError>)
    ensures r.Failure? <==> q.None?
    ensures r.Success? ==> r.value.query == Lower(q.value) && r.value.count == |r.value.results|
    ensures r.Success? ==> forall x :: x in r.value.results ==>
      exists row :: row in db.rows && x == Item(row) && ColumnsMatch(row, Lower(q.value)) && Mentions(row, Lower(q.value))
    ensures r.Success? ==> forall i :: 0 <= i < |db.rows| ==>
      ColumnsMatch(db.rows[i], Lower(q.value)) && Mentions(db.rows[i], Lower(q.value)) ==> Item(db.rows[i]) in r.value.results
    ensures r.Success? ==> IsSubseq(r.value.results, Items(db.rows))
  {
    if q.None? then Failure(QueryMissing)
    else
      var query := Lower(q.value);
      var rows := HitRows(db, query);
      var results := Items(rows);
      forall x | x in results
        ensures exists row :: row in rows && x == Item(row)
      {
        var i :| 0 <= i < |results| && results[i] == x;
        assert rows[i] in rows;
      }
      forall i | 0 <= i < |db.rows| && ColumnsMatch(db.rows[i], query) && Mentions(db.rows[i], query)
        ensures Item(db.rows[i]) in results
      {
        var k :| 0 <= k < |rows| && rows[k] == db.rows[i];
        assert results[k] == Item(db.rows[i]);
      }
      ItemsKeepSubseq(rows, db.rows);
      Success(SearchResponse(query, results, |results|))
  }

  /** Dropping rows before or after building the items gives the same order. */
  lemma {:induction false} ItemsKeepSubseq(r: seq<ImageRow>, s: seq<ImageRow>)
    requires IsSubseq(r, s)
    ensures IsSubseq(Items(r), Items(s))
    decreases |s|
  {
    if r == [] {
    } else if r[0] == s[0] && IsSubseq(r[1..], s[1..]) {
      ItemsKeepSubseq(r[1..], s[1..]);
      assert Items(r)[1..] == Items(r[1..]);
      assert Items(s)[1..] == Items(s[1..]);
    } else {
      ItemsKeepSubseq(r, s[1..]);
      assert Items(s)[1..] == Items(s[1..]);
    }
  }

  /**
    A mention the post-filter accepts is always selected by the SQL prefilter
    too, provided the lower-cased query is written verbatim by
    `JSON.stringify`: there the prefilter is redundant.
  */
  lemma MentionImpliesColumns(row: ImageRow, query: string)
    requires Lower(query) == query && NoEscapes(query)
    requires Mentions(row, query)
    ensures ColumnsMatch(row, query)
  {
    if SomeMentions(row.objects, query) {
      var i :| 0 <= i < |row.objects| && Contains(Lower(row.objects[i]), query);
      assert LikeContains(row.objects[i], query);
      LikeJsonStringArray(row.objects, i, query);
    } else {
      var i :| 0 <= i < |row.text| && Contains(Lower(row.text[i]), query);
      assert LikeContains(row.text[i], query);
      LikeJsonStringArray(row.text, i, query);
    }
  }

  /**
    For a query `JSON.stringify` writes verbatim, the results are exactly the
    rows, in table order, one of whose objects or text lines contains the query
    ignoring ASCII case.
  */
  lemma SearchFindsEveryMention(db: Images, q: string)
    requires NoEscapes(Lower(q))
    ensures Search(db, Some(q)).value.results
         == Items(Filter((row: ImageRow) => Mentions(row, Lower(q)), db.rows))
  {
    var query := Lower(q);
    LowerIdempotent(q);
    forall row | Mentions(row, query)
      ensures ColumnsMatch(row, query)
    {
      MentionImpliesColumns(row, query);
    }
    FilterAbsorbs((row: ImageRow) => Mentions(row, query), (row: ImageRow) => ColumnsMatch(row, query), db.rows);
  }

  /**
    The empty query the gallery sends to list everything returns exactly the
    rows with at least one detected object or text line: images where nothing
    was detected never reach the gallery.
  */
  lemma EmptyQueryListsDetections(db: Images)
    ensures Search(db, Some("")).value.results
         == Items(Filter((row: ImageRow) => |row.objects| > 0 || |row.text| > 0, db.rows))
  {
    var query := Lower("");
    assert query == "";
    forall row: ImageRow
      ensures Mentions(row, "") == (|row.objects| > 0 || |row.text| > 0)
    {
      if |row.objects| > 0 {
        assert IsPrefix("", Lower(row.objects[0])[0..]);
        assert Contains(Lower(row.objects[0]), "");
      }
      if |row.text| > 0 {
        assert IsPrefix("", Lower(row.text[0])[0..]);
        assert Contains(Lower(row.text[0]), "");
      }
    }
    assert NoEscapes(query);
    SearchFindsEveryMention(db, "");
    FilterSame((row: ImageRow) => Mentions(row, ""), (row: ImageRow) => |row.objects| > 0 || |row.text| > 0, db.rows);
  }
}

=== FILE: seqs.dfy ===
/**
  Sequence operations the SQL statements and the client's `Array.prototype.filter`
  reduce to: filtering, order preservation, pairwise properties, counting and a
  sort by a numeric key.
*/
module Seqs {

  /** `Array.prototype.filter`: the elements of `s` satisfying `p`, in their original order. */
  function Filter<T(==)>(p: T -> bool, s: seq<T>): (r: seq<T>)
    ensures |r| <= |s|
    ensures forall x :: x in r ==> x in s && p(x)
    ensures forall i :: 0 <= i < |s| && p(s[i]) ==> s[i] in r
  {
    if s == [] then [] else (if p(s[0]) then [s[0]] else []) + Filter(p, s[1..])
  }

  /** How many elements of `s` satisfy `p` (SQL `COUNT(*) ... WHERE p`). */
  function Count<T>(p: T -> bool, s: seq<T>): nat {
    if s == [] then 0 else (if p(s[0]) then 1 else 0) + Count(p, s[1..])
  }

  lemma {:induction false} FilterCount<T>(p: T -> bool, s: seq<T>)
    ensures |Filter(p, s)| == Count(p, s)
  {
    if s != [] {
      FilterCount(p, s[1..]);
    }
  }

  /** A weaker condition counts at least as many elements. */
  lemma {:induction false} CountMonotone<T>(p: T -> bool, q: T -> bool, s: seq<T>)
    requires forall x :: p(x) ==> q(x)
    ensures Count(p, s) <= Count(q, s)
  {
    if s != [] {
      CountMonotone(p, q, s[1..]);
    }
  }

  /** Nothing counts when nothing satisfies the condition. */
  lemma {:induction false} CountNone<T>(p: T -> bool, s: seq<T>)
    requires forall x :: !p(x)
    ensures Count(p, s) == 0
  {
    if s != [] {
      CountNone(p, s[1..]);
    }
  }

  /** Appending an element adds one to the count exactly when it satisfies the condition. */
  lemma {:induction false} CountSnoc<T>(p: T -> bool, s: seq<T>, x: T)
    ensures Count(p, s + [x]) == Count(p, s) + (if p(x) then 1 else 0)
  {
    if s == [] {
      assert s + [x] == [x];
    } else {
      assert (s + [x])[0] == s[0];
      assert (s + [x])[1..] == s[1..] + [x];
      CountSnoc(p, s[1..], x);
    }
  }

  /** Filters by conditions that agree everywhere give the same result. */
  lemma {:induction false} FilterSame<T>(p: T -> bool, q: T -> bool, s: seq<T>)
    requires forall x :: p(x) == q(x)
    ensures Filter(p, s) == Filter(q, s)
  {
    if s != [] {
      FilterSame(p, q, s[1..]);
    }
  }

  /** Filtering by a condition already implied by the second filter changes nothing. */
  lemma {:induction false} FilterAbsorbs<T>(p: T -> bool, q: T -> bool, s: seq<T>)
    requires forall x :: p(x) ==> q(x)
    ensures Filter(p, Filter(q, s)) == Filter(p, s)
  {
    if s != [] {
      FilterAbsorbs(p, q, s[1..]);
      var rest := Filter(q, s[1..]);
      if q(s[0]) {
        var fs := [s[0]] + rest;
        assert Filter(q, s) == fs;
        assert fs[0] == s[0] && fs[1..] == rest;
        assert Filter(p, fs) == (if p(s[0]) then [s[0]] else []) + Filter(p, rest);
      } else {
        assert Filter(q, s) == rest;
        assert !p(s[0]);
      }
    }
  }

  /** `r` is obtained from `s` by deleting elements, keeping the order of what is left. */
  predicate IsSubseq<T(==)>(r: seq<T>, s: seq<T>)
    decreases |s|
  {
    if r == [] then true
    else if s == [] then false
    else (r[0] == s[0] && IsSubseq(r[1..], s[1..])) || IsSubseq(r, s[1..])
  }

  lemma {:induction false} FilterIsSubseq<T>(p: T -> bool, s: seq<T>)
    ensures IsSubseq(Filter(p, s), s)
  {
    if s != [] {
      FilterIsSubseq(p, s[1..]);
      var rest := Filter(p, s[1..]);
      if p(s[0]) {
        assert Filter(p, s) == [s[0]] + rest;
        assert ([s[0]] + rest)[1..] == rest;
      } else {
        assert Filter(p, s) == rest;
      }
    }
  }

  /** A subsequence of a subsequence is a subsequence. */
  lemma {:induction false} SubseqTrans<T>(a: seq<T>, b: seq<T>, c: seq<T>)
    requires IsSubseq(a, b) && IsSubseq(b, c)
    ensures IsSubseq(a, c)
    decreases |c|
  {
    if a == [] {
    } else if b[0] == c[0] && IsSubseq(b[1..], c[1..]) {
      if a[0] == b[0] && IsSubseq(a[1..], b[1..]) {
        SubseqTrans(a[1..], b[1..], c[1..]);
      } else {
        SubseqTrans(a, b[1..], c[1..]);
      }
    } else {
      SubseqTrans(a, b, c[1..]);
    }
  }

  /** A filter that keeps everything is the identity. */
  lemma {:induction false} FilterKeepsAll<T>(p: T -> bool, s: seq<T>)
    requires forall i :: 0 <= i < |s| ==> p(s[i])
    ensures Filter(p, s) == s
  {
    if s != [] {
      FilterKeepsAll(p, s[1..]);
      assert [s[0]] + s[1..] == s;
    }
  }

  /** A filter and its complement split the input between them. */
  lemma {:induction false} FilterPartition<T>(p: T -> bool, q: T -> bool, s: seq<T>)
    requires forall x :: q(x) == !p(x)
    ensures |Filter(p, s)| + |Filter(q, s)| == |s|
  {
    if s != [] {
      FilterPartition(p, q, s[1..]);
    }
  }

  lemma {:induction false} FilterConcat<T>(p: T -> bool, a: seq<T>, b: seq<T>)
    ensures Filter(p, a + b) == Filter(p, a) + Filter(p, b)
  {
    if a == [] {
      assert a + b == b;
    } else {
      assert (a + b)[0] == a[0];
      assert (a + b)[1..] == a[1..] + b;
      FilterConcat(p, a[1..], b);
    }
  }

  /** `R` holds of every pair of elements in the order they appear. */
  predicate Pairwise<T>(R: (T, T) -> bool, s: seq<T>) {
    forall i, j :: 0 <= i < j < |s| ==> R(s[i], s[j])
  }

  /** Deleting elements never breaks a pairwise property. */
  lemma {:induction false} FilterKeepsPairwise<T>(R: (T, T) -> bool, p: T -> bool, s: seq<T>)
    requires Pairwise(R, s)
    ensures Pairwise(R, Filter(p, s))
  {
    if s != [] {
      assert Pairwise(R, s[1..]) by {
        forall i, j | 0 <= i < j < |s[1..]|
          ensures R(s[1..][i], s[1..][j])
        {
          assert s[1..][i] == s[i + 1] && s[1..][j] == s[j + 1];
        }
      }
      FilterKeepsPairwise(R, p, s[1..]);
      var rest := Filter(p, s[1..]);
      if p(s[0]) {
        var r := [s[0]] + rest;
        forall i, j | 0 <= i < j < |r|
          ensures R(r[i], r[j])
        {
          if i == 0 {
            assert r[j] == rest[j - 1] && r[j] in s[1..];
            var k :| 0 <= k < |s[1..]| && s[1..][k] == r[j];
            assert s[k + 1] == r[j];
          } else {
            assert r[i] == rest[i - 1] && r[j] == rest[j - 1];
          }
        }
      }
    }
  }

  // ------------------------------------------------------------- sorting

  /** Non-increasing in `key`. */
  predicate SortedDesc<T>(key: T -> int, s: seq<T>) {
    forall i, j :: 0 <= i < j < |s| ==> key(s[i]) >= key(s[j])
  }

  /** Deleting elements keeps a sequence sorted. */
  lemma FilterKeepsSorted<T>(key: T -> int, p: T -> bool, s: seq<T>)
    requires SortedDesc(key, s)
    ensures SortedDesc(key, Filter(p, s))
  {
    var geq := (x: T, y: T) => key(x) >= key(y);
    assert Pairwise(geq, s);
    FilterKeepsPairwise(geq, p, s);
    var r := Filter(p, s);
    assert forall i, j :: 0 <= i < j < |r| ==> geq(r[i], r[j]);
  }

  /** Puts `x` in front of the first element whose key is not larger. */
  function InsertDesc<T>(key: T -> int, x: T, s: seq<T>): (r: seq<T>)
    ensures |r| == |s| + 1
    ensures multiset(r) == multiset(s) + multiset{x}
  {
    if s == [] then [x]
    else if key(x) >= key(s[0]) then [x] + s
    else
      assert s == [s[0]] + s[1..];
      [s[0]] + InsertDesc(key, x, s[1..])
  }

  /** Inserting into a sorted sequence keeps it sorted; the new head is `x` or the old head. */
  lemma {:induction false} InsertDescSorted<T>(key: T -> int, x: T, s: seq<T>)
    requires SortedDesc(key, s)
    ensures SortedDesc(key, InsertDesc(key, x, s))
    ensures InsertDesc(key, x, s)[0] == x || (|s| > 0 && InsertDesc(key, x, s)[0] == s[0])
  {
    if s == [] {
    } else if key(x) >= key(s[0]) {
      ConsSorted(key, x, s);
    } else {
      TailSorted(key, s);
      InsertDescSorted(key, x, s[1..]);
      var rest := InsertDesc(key, x, s[1..]);
      assert |s| > 1 ==> key(s[0]) >= key(s[1]);
      ConsSorted(key, s[0], rest);
    }
  }

  lemma TailSorted<T>(key: T -> int, s: seq<T>)
    requires SortedDesc(key, s) && |s| > 0
    ensures SortedDesc(key, s[1..])
  {
    forall i, j | 0 <= i < j < |s| - 1
      ensures key(s[1..][i]) >= key(s[1..][j])
    {
      assert s[1..][i] == s[i + 1] && s[1..][j] == s[j + 1];
    }
  }

  /** A sorted sequence stays sorted when an element at least as large as its head is put in front. */
  lemma ConsSorted<T>(key: T -> int, y: T, r: seq<T>)
    requires SortedDesc(key, r)
    requires |r| > 0 ==> key(y) >= key(r[0])
    ensures SortedDesc(key, [y] + r)
  {
    var t := [y] + r;
    forall i, j | 0 <= i < j < |t|
      ensures key(t[i]) >= key(t[j])
    {
      assert t[j] == r[j - 1];
      if i == 0 {
        assert key(r[0]) >= key(r[j - 1]);
      } else {
        assert t[i] == r[i - 1];
      }
    }
  }

  /**
    A sort by `key`, largest first: `ORDER BY key DESC`.
    The result is sorted and is a permutation of the input.
  */
  function SortDesc<T>(key: T -> int, s: seq<T>): (r: seq<T>)
    ensures |r| == |s|
    ensures SortedDesc(key, r)
    ensures multiset(r) == multiset(s)
  {
    if s == [] then []
    else
      assert s == [s[0]] + s[1..];
      InsertDescSorted(key, s[0], SortDesc(key, s[1..]));
      InsertDesc(key, s[0], SortDesc(key, s[1..]))
  }
}

=== FILE: statistics.dfy ===
/**
  `GET /api/user/statistics` of backend/server.js: how many analyses the caller
  has, how many were saved in the last seven days, and how many carry each
  analysis type.
*/
module Statistics {
  import opened Wrappers
  import opened Seqs
  import opened AnalysisKinds
  import opened Archive

  /** `7 * 24 * 60 * 60 * 1000` milliseconds. */
  const RecentWindowMs: int := 7 * 24 * 60 * 60 * 1000

  datatype Stats = Stats(totalAnalyses: nat, recentActivity: nat, analysesByType: map<string, nat>)

  /** `analysis.analysisType || 'general'`: a missing or empty type counts as `general`. */
  function EffectiveType(a: Analysis): (t: string)
    ensures t != ""
    ensures a.analysisType != "" ==> t == a.analysisType
    ensures a.analysisType == "" ==> t == General
  {
    if a.analysisType == "" then General else a.analysisType
  }

  predicate Own(r: Record, userId: UserId) {
    r.userId == userId
  }

  predicate Recent(r: Record, userId: UserId, now: int) {
    r.userId == userId && r.savedAt > now - RecentWindowMs
  }

  /**
    The row is one of the caller's and counts toward type `t`. Rows whose
    `analysis_data` is NULL make `JSON.parse(...).analysisType` throw and are
    skipped.
  */
  predicate OfType(r: Record, userId: UserId, t: string) {
    r.userId == userId && r.analysisData.Some? && EffectiveType(r.analysisData.value) == t
  }

  /** The number of the caller's rows counting toward type `t`, each row looked at on its own. */
  function TypeCount(rs: seq<Record>, userId: UserId, t: string): nat {
    Count((r: Record) => OfType(r, userId, t), rs)
  }

  /**
    The `typeCounts` object built by `typeRows.forEach`: one entry per type
    seen, incremented once per row. Counting is order-independent, so the rows
    are folded from the right.
  */
  function Tally(rs: seq<Record>, userId: UserId): (m: map<string, nat>)
    ensures forall t :: t in m <==> TypeCount(rs, userId, t) > 0
    ensures forall t :: t in m ==> m[t] == TypeCount(rs, userId, t)
  {
    if rs == [] then map[]
    else
      var m := Tally(rs[1..], userId);
      var r := rs[0];
      assert forall t :: TypeCount(rs, userId, t) == (if OfType(r, userId, t) then 1 else 0) + TypeCount(rs[1..], userId, t);
      if r.userId == userId && r.analysisData.Some? then
        var t := EffectiveType(r.analysisData.value);
        m[t := (if t in m then m[t] else 0) + 1]
      else
        m
  }

  /** The statistics response for `userId` at instant `now` (without `averagePerWeek`). */
  function GetStatistics(a: Archive, userId: UserId, now: int): (r: Stats)
    ensures r.totalAnalyses == Count((x: Record) => Own(x, userId), a.records)
    ensures r.recentActivity == Count((x: Record) => Recent(x, userId, now), a.records)
    ensures r.recentActivity <= r.totalAnalyses
    ensures forall t :: t in r.analysesByType <==> TypeCount(a.records, userId, t) > 0
    ensures forall t :: t in r.analysesByType ==> r.analysesByType[t] == TypeCount(a.records, userId, t)
  {
    CountMonotone((x: Record) => Recent(x, userId, now), (x: Record) => Own(x, userId), a.records);
    Stats(Count((x: Record) => Own(x, userId), a.records),
          Count((x: Record) => Recent(x, userId, now), a.records),
          Tally(a.records, userId))
  }

  /** The empty type never appears as a key: it is folded into `general`. */
  lemma NoEmptyTypeKey(a: Archive, userId: UserId, now: int)
    ensures "" !in GetStatistics(a, userId, now).analysesByType
  {
    var t := "";
    assert Count((r: Record) => OfType(r, userId, t), a.records) == 0 by {
      assert forall r: Record :: !OfType(r, userId, t);
      CountNone((r: Record) => OfType(r, userId, t), a.records);
    }
  }

  /**
    No type is counted more often than the caller has analyses: each row
    counts toward at most one type, and only the caller's rows count.
  */
  lemma TypeCountBound(a: Archive, userId: UserId, now: int, t: string)
    requires t in GetStatistics(a, userId, now).analysesByType
    ensures GetStatistics(a, userId, now).analysesByType[t] <= GetStatistics(a, userId, now).totalAnalyses
  {
    CountMonotone((r: Record) => OfType(r, userId, t), (x: Record) => Own(x, userId), a.records);
  }

  /** Saving an analysis of type `t` for the caller raises that type's count by one. */
  lemma SaveBumpsItsType(a: Archive, userId: UserId, analysis: Analysis, info: Option<ImageInfo>,
                         now: int, later: int)
    ensures var a' := SaveAnalysis(a, userId, Some(analysis), info, now).0;
      var t := EffectiveType(analysis);
      && t in GetStatistics(a', userId, later).analysesByType
      && GetStatistics(a', userId, later).analysesByType[t] == TypeCount(a.records, userId, t) + 1
  {
    var (a', id) := SaveAnalysis(a, userId, Some(analysis), info, now);
    var t := EffectiveType(analysis);
    var row := Record(id, userId, Some(analysis), info, now);
    assert a'.records == a.records + [row] by {
      assert a'.records == a'.records[..|a.records|] + [a'.records[|a.records|]];
    }
    CountSnoc((r: Record) => OfType(r, userId, t), a.records, row);
  }
}

=== FILE: text.dfy ===
/**
  String helpers the server and the client lean on: substring search (JavaScript
  `includes`, SQL `LIKE '%x%'`), ASCII lower-casing, the string escaping of
  `JSON.stringify`, `join`, decimal rendering and display truncation.
*/
module Text {

  /** `p` is a prefix of `s`. */
  predicate IsPrefix(p: string, s: string) {
    |p| <= |s| && s[..|p|] == p
  }

  /** `needle` occurs in `hay` as a contiguous run of characters (JavaScript `includes`). */
  predicate Contains(hay: string, needle: string) {
    exists i :: 0 <= i <= |hay| && IsPrefix(needle, hay[i..])
  }

  lemma ContainsMiddle(a: string, n: string, b: string)
    ensures Contains(a + n + b, n)
  {
    var h := a + n + b;
    assert h[|a|..][..|n|] == n;
    assert IsPrefix(n, h[|a|..]);
  }

  lemma ContainsSelf(s: string)
    ensures Contains(s, s)
  {
    ContainsMiddle("", s, "");
    assert "" + s + "" == s;
  }

  /** An occurrence inside `h` is still an occurrence once `h` is embedded in a longer string. */
  lemma ContainsWiden(a: string, h: string, b: string, n: string)
    requires Contains(h, n)
    ensures Contains(a + h + b, n)
  {
    var i :| 0 <= i <= |h| && IsPrefix(n, h[i..]);
    var w := a + h + b;
    assert w[|a| + i..][..|n|] == h[i..][..|n|];
    assert IsPrefix(n, w[|a| + i..]);
  }

  /** Every occurrence splits the haystack around the needle. */
  lemma ContainsSplit(h: string, n: string) returns (a: string, b: string)
    requires Contains(h, n)
    ensures h == a + n + b
  {
    var i :| 0 <= i <= |h| && IsPrefix(n, h[i..]);
    a, b := h[..i], h[i + |n|..];
    assert h == h[..i] + h[i..i + |n|] + h[i + |n|..];
  }

  lemma ContainsTrans(h: string, m: string, n: string)
    requires Contains(h, m) && Contains(m, n)
    ensures Contains(h, n)
  {
    var a, b := ContainsSplit(h, m);
    ContainsWiden(a, m, b, n);
  }

  // ---------------------------------------------------------------- lower case

  /** ASCII lower-casing of one character; every other character is left alone. */
  function LowerChar(c: char): char {
    if 'A' <= c <= 'Z' then (c as int + 32) as char else c
  }

  /** ASCII lower-casing of a string. */
  function Lower(s: string): (r: string)
    ensures |r| == |s|
  {
    if s == [] then [] else [LowerChar(s[0])] + Lower(s[1..])
  }

  lemma LowerAt(s: string, k: int)
    requires 0 <= k < |s|
    ensures Lower(s)[k] == LowerChar(s[k])
  {
    if k > 0 {
      LowerAt(s[1..], k - 1);
    }
  }

  lemma LowerConcat(a: string, b: string)
    ensures Lower(a + b) == Lower(a) + Lower(b)
  {
    if a == [] {
      assert a + b == b;
    } else {
      assert (a + b)[0] == a[0];
      assert (a + b)[1..] == a[1..] + b;
      LowerConcat(a[1..], b);
    }
  }

  lemma LowerIdempotent(s: string)
    ensures Lower(Lower(s)) == Lower(s)
  {
    if s != [] {
      LowerIdempotent(s[1..]);
    }
  }

  /** Lower-casing both sides keeps every occurrence. */
  lemma LowerKeepsContains(h: string, n: string)
    requires Contains(h, n)
    ensures Contains(Lower(h), Lower(n))
  {
    var a, b := ContainsSplit(h, n);
    LowerConcat(a + n, b);
    LowerConcat(a, n);
    ContainsMiddle(Lower(a), Lower(n), Lower(b));
  }

  /**
    SQL `hay LIKE '%pat%'` as SQLite evaluates it for a pattern without `%` or `_`:
    a substring test that ignores ASCII case. The wildcards `%` and `_` inside
    `pat` are matched literally here, which SQLite does not do.
  */
  predicate LikeContains(hay: string, pat: string) {
    Contains(Lower(hay), Lower(pat))
  }

  lemma ContainsIsLike(h: string, n: string)
    requires Contains(h, n)
    ensures LikeContains(h, n)
  {
    LowerKeepsContains(h, n);
  }

  // ------------------------------------------------------------ JSON strings

  function HexDigit(d: nat): char
    requires d < 16
  {
    if d < 10 then ('0' as int + d) as char else ('a' as int + d - 10) as char
  }

  /** How `JSON.stringify` writes one character inside a string literal. */
  function EscapeChar(c: char): string {
    if c == '"' then "\\\""
    else if c == '\\' then "\\\\"
    else if c as int == 8 then "\\b"
    else if c == '\t' then "\\t"
    else if c == '\n' then "\\n"
    else if c as int == 12 then "\\f"
    else if c == '\r' then "\\r"
    else if c < ' ' then "\\u00" + [HexDigit(c as int / 16), HexDigit(c as int % 16)]
    else [c]
  }

  function Escape(s: string): string {
    if s == [] then [] else EscapeChar(s[0]) + Escape(s[1..])
  }

  /** A string `JSON.stringify` copies verbatim into its output. */
  predicate NoEscapes(s: string) {
    forall i :: 0 <= i < |s| ==> ' ' <= s[i] && s[i] != '"' && s[i] != '\\'
  }

  /** `JSON.stringify` of a string. */
  function JsonString(s: string): string {
    "\"" + Escape(s) + "\""
  }

  lemma {:induction false} EscapeConcat(a: string, b: string)
    ensures Escape(a + b) == Escape(a) + Escape(b)
  {
    if a == [] {
      assert a + b == b;
    } else {
      assert (a + b)[0] == a[0];
      assert (a + b)[1..] == a[1..] + b;
      EscapeConcat(a[1..], b);
    }
  }

  lemma {:induction false} EscapeVerbatim(s: string)
    requires NoEscapes(s)
    ensures Escape(s) == s
  {
    if s != [] {
      assert NoEscapes(s[1..]) by {
        forall i | 0 <= i < |s[1..]|
          ensures ' ' <= s[1..][i] && s[1..][i] != '"' && s[1..][i] != '\\'
        {
          assert s[1..][i] == s[i + 1];
        }
      }
      EscapeVerbatim(s[1..]);
      assert ' ' <= s[0];
    }
  }

  /** Escaping maps every occurrence of `n` in `h` to an occurrence of the escaped needle. */
  lemma EscapeKeepsContains(h: string, n: string)
    requires Contains(h, n)
    ensures Contains(Escape(h), Escape(n))
  {
    var a, b := ContainsSplit(h, n);
    EscapeConcat(a + n, b);
    EscapeConcat(a, n);
    ContainsMiddle(Escape(a), Escape(n), Escape(b));
  }

  lemma LowerEscapeChar(c: char)
    ensures Lower(EscapeChar(c)) == EscapeChar(LowerChar(c))
  {
    var e := EscapeChar(c);
    if c < ' ' || c == '"' || c == '\\' {
      assert LowerChar(c) == c;
      forall k | 0 <= k < |e|
        ensures Lower(e)[k] == e[k]
      {
        LowerAt(e, k);
      }
    } else {
      assert e == [c];
    }
  }

  /** Escaping and ASCII lower-casing commute, since escape sequences are lower case. */
  lemma {:induction false} LowerEscape(s: string)
    ensures Lower(Escape(s)) == Escape(Lower(s))
  {
    if s != [] {
      LowerConcat(EscapeChar(s[0]), Escape(s[1..]));
      LowerEscapeChar(s[0]);
      LowerEscape(s[1..]);
      assert Lower(s)[1..] == Lower(s[1..]);
      assert Lower(s)[0] == LowerChar(s[0]);
    }
  }

  lemma LowerKeepsNoEscapes(s: string)
    requires NoEscapes(s)
    ensures NoEscapes(Lower(s))
  {
    forall i | 0 <= i < |s|
      ensures ' ' <= Lower(s)[i] && Lower(s)[i] != '"' && Lower(s)[i] != '\\'
    {
      LowerAt(s, i);
    }
  }

  /** A `LIKE` match inside `h` survives embedding `h` in a longer string. */
  lemma LikeWiden(a: string, h: string, b: string, n: string)
    requires LikeContains(h, n)
    ensures LikeContains(a + h + b, n)
  {
    LowerConcat(a + h, b);
    LowerConcat(a, h);
    ContainsWiden(Lower(a), Lower(h), Lower(b), Lower(n));
  }

  /** A `LIKE` pattern `JSON.stringify` writes verbatim still matches after escaping. */
  lemma LikeEscape(h: string, n: string)
    requires LikeContains(h, n)
    requires NoEscapes(n)
    ensures LikeContains(Escape(h), n)
  {
    EscapeKeepsContains(Lower(h), Lower(n));
    LowerEscape(h);
    LowerKeepsNoEscapes(n);
    EscapeVerbatim(Lower(n));
  }

  /** ... and so it matches the serialised string, quotes included. */
  lemma LikeJsonString(h: string, n: string)
    requires LikeContains(h, n)
    requires NoEscapes(n)
    ensures LikeContains(JsonString(h), n)
  {
    LikeEscape(h, n);
    LikeWiden("\"", Escape(h), "\"", n);
  }

  // --------------------------------------------------------------- join

  /** JavaScript `xs.join(sep)`. */
  function Join(xs: seq<string>, sep: string): string
    decreases |xs|
  {
    if |xs| == 0 then ""
    else if |xs| == 1 then xs[0]
    else xs[0] + sep + Join(xs[1..], sep)
  }

  /** Every joined element occurs in the joined string. */
  lemma {:induction false} JoinContains(xs: seq<string>, sep: string, k: int)
    requires 0 <= k < |xs|
    ensures Contains(Join(xs, sep), xs[k])
    decreases |xs|
  {
    if |xs| == 1 {
      ContainsSelf(xs[0]);
    } else if k == 0 {
      ContainsMiddle("", xs[0], sep + Join(xs[1..], sep));
      assert "" + xs[0] + (sep + Join(xs[1..], sep)) == Join(xs, sep);
    } else {
      JoinContains(xs[1..], sep, k - 1);
      ContainsWiden(xs[0] + sep, Join(xs[1..], sep), "", xs[k]);
      assert xs[0] + sep + Join(xs[1..], sep) + "" == Join(xs, sep);
    }
  }

  /** `JSON.stringify` of an array of strings. */
  function JsonStringArray(xs: seq<string>): string {
    "[" + Join(seq(|xs|, i requires 0 <= i < |xs| => JsonString(xs[i])), ",") + "]"
  }

  /** The escaped form of every element occurs in the serialised array. */
  lemma JsonStringArrayContains(xs: seq<string>, k: int)
    requires 0 <= k < |xs|
    ensures Contains(JsonStringArray(xs), Escape(xs[k]))
  {
    var parts := seq(|xs|, i requires 0 <= i < |xs| => JsonString(xs[i]));
    JoinContains(parts, ",", k);
    ContainsMiddle("\"", Escape(xs[k]), "\"");
    ContainsTrans(Join(parts, ","), parts[k], Escape(xs[k]));
    ContainsWiden("[", Join(parts, ","), "]", Escape(xs[k]));
  }

  /** A `LIKE` pattern written verbatim matches a serialised array when it matches an element. */
  lemma LikeJsonStringArray(xs: seq<string>, k: int, n: string)
    requires 0 <= k < |xs|
    requires LikeContains(xs[k], n)
    requires NoEscapes(n)
    ensures LikeContains(JsonStringArray(xs), n)
  {
    LikeEscape(xs[k], n);
    JsonStringArrayContains(xs, k);
    LowerKeepsContains(JsonStringArray(xs), Escape(xs[k]));
    ContainsTrans(Lower(JsonStringArray(xs)), Lower(Escape(xs[k])), Lower(n));
  }

  // ------------------------------------------------------------ numbers

  function DigitChar(d: nat): char
    requires d < 10
  {
    ('0' as int + d) as char
  }

  /** The decimal rendering of a natural number, as JavaScript prints it. */
  function Decimal(n: nat): string
    decreases n
  {
    if n < 10 then [DigitChar(n)] else Decimal(n / 10) + [DigitChar(n % 10)]
  }

  // --------------------------------------------------------- truncation

  /**
    The display truncation both history and gallery cards apply to file names:
    longer than `n` characters becomes the first `n` followed by "...".
  */
  function Truncate(s: string, n: nat): (r: string)
    ensures |s| <= n ==> r == s
    ensures |s| > n ==> |r| == n + 3 && r[..n] == s[..n] && r[n..] == "..."
  {
    if |s| > n then s[..n] + "..." else s
  }
}

=== FILE: upload.dfy ===
/**
  `POST /api/analyze` of backend/server.js as far as the tables are concerned:
  an accepted upload is recorded in `images`, and an upload that carries a
  valid session token is auto-saved to the caller's archive. The file itself,
  the thumbnail and the vision call are outside the model: the handler
  receives the stored file's description and the analysis (or its absence,
  when thumbnailing or the vision call failed) as inputs.
*/
module Upload {
  import opened Wrappers
  import opened Text
  import opened Paths
  import opened Archive
  import opened ImageSearch

  /** What multer hands the handler: the client's name, the generated name and the size. */
  datatype UploadedFile = UploadedFile(originalName: string, storedName: string, size: nat)

  datatype Server = Server(images: Images, archive: Archive)

  datatype AnalyzeError = NoImageFile | ProcessingFailed

  datatype AnalyzeResponse = AnalyzeResponse(analysis: Analysis, imageInfo: ImageInfo, autoSaved: bool)

  /** The `imageInfo` object the handler builds from the stored file. */
  function InfoOf(f: UploadedFile): (i: ImageInfo)
    ensures i.originalName == f.originalName && i.storedName == f.storedName && i.size == f.size
    ensures StoredNameOfThumbnail(i.thumbnail) == Some(f.storedName)
    ensures i.fullImage == UploadsPrefix + f.storedName
  {
    ThumbnailRoundTrip(f.storedName);
    ImageInfo(f.originalName, f.storedName, f.size, ThumbnailPath(f.storedName), FullImagePath(f.storedName))
  }

  /** `if (userId)`: the token named a user and the id is truthy. */
  predicate SignedIn(claim: Option<nat>) {
    claim.Some? && claim.value != 0
  }

  /**
    The upload handler at instant `now`. `claim` is the `userId` a verified
    token carries (`None` without a token, or when verification fails).
  */
  function Analyze(s: Server, file: Option<UploadedFile>, claim: Option<nat>, analysis: Option<Analysis>,
                   now: int): (r: (Server, Result<AnalyzeResponse, AnalyzeError>))
    ensures file.None? ==> r == (s, Failure(NoImageFile))
    ensures file.Some? && analysis.None? ==> r == (s, Failure(ProcessingFailed))
    ensures r.1.Success? ==>
      && r.1.value.autoSaved == SignedIn(claim)
      && r.1.value.imageInfo == InfoOf(file.value)
      && |r.0.images.rows| == |s.images.rows| + 1
      && r.0.images.rows[..|s.images.rows|] == s.images.rows
      && r.0.images.rows[|s.images.rows|].filename == file.value.originalName
      && r.0.images.rows[|s.images.rows|].imagePath == file.value.storedName
      && r.0.images.rows[|s.images.rows|].userId == claim
    ensures r.1.Success? && !SignedIn(claim) ==> r.0.archive == s.archive
    ensures r.1.Success? && SignedIn(claim) ==>
      (r.0.archive == s.archive <==> HasRecentDuplicate(s.archive, claim.value, file.value.storedName, now))
    ensures r.0.archive != s.archive ==>
      && |r.0.archive.records| == |s.archive.records| + 1
      && r.0.archive.records[..|s.archive.records|] == s.archive.records
      && claim.Some? && r.0.archive.records[|s.archive.records|].userId == claim.value
      && r.0.archive.records[|s.archive.records|].analysisData == analysis
      && r.0.archive.records[|s.archive.records|].imageInfo == Some(InfoOf(file.value))
      && r.0.archive.records[|s.archive.records|].savedAt == now
  {
    if file.None? then (s, Failure(NoImageFile))
    else if analysis.None? then (s, Failure(ProcessingFailed))
    else
      var f := file.value;
      var an := analysis.value;
      var info := InfoOf(f);
      var images := AddImage(s.images, f.originalName, now, an.objects, an.text, an.faces, f.storedName, claim);
      assert images.rows[..|s.images.rows|] == s.images.rows;
      var archive := if SignedIn(claim) then AutoSave(s.archive, claim.value, an, info, now).0 else s.archive;
      (Server(images, archive), Success(AnalyzeResponse(an, info, SignedIn(claim))))
  }

  /** An upload without a valid session never touches anyone's archive. */
  lemma AnonymousUploadKeepsArchives(s: Server, file: Option<UploadedFile>, analysis: Option<Analysis>, now: int)
    ensures Analyze(s, file, None, analysis, now).0.archive == s.archive
    ensures Analyze(s, file, None, analysis, now).1.Success? ==> !Analyze(s, file, None, analysis, now).1.value.autoSaved
  {
  }

  /**
    A re-upload of the same picture within five minutes is saved again: the
    upload handler names every stored file afresh, and a name the archive's
    recent rows do not mention cannot be blocked.
  */
  lemma ReuploadIsSavedAgain(s: Server, u: nat, f1: UploadedFile, f2: UploadedFile, an1: Analysis, an2: Analysis,
                             now1: int, now2: int)
    requires u != 0
    requires f2.originalName == f1.originalName && f2.size == f1.size
    requires !LikeContains(ImageInfoJson(InfoOf(f1)), f2.storedName)
    requires !HasRecentDuplicate(s.archive, u, f1.storedName, now1)
    requires !HasRecentDuplicate(s.archive, u, f2.storedName, now2)
    ensures var s1 := Analyze(s, Some(f1), Some(u), Some(an1), now1).0;
      var s2 := Analyze(s1, Some(f2), Some(u), Some(an2), now2).0;
      |s2.archive.records| == |s.archive.records| + 2
  {
    var s1 := Analyze(s, Some(f1), Some(u), Some(an1), now1).0;
    var n := |s.archive.records|;
    assert |s1.archive.records| == n + 1;
    forall i | 0 <= i < |s1.archive.records|
      ensures !Blocks(s1.archive.records[i], u, f2.storedName, now2)
    {
      if i < n {
        assert s1.archive.records[i] == s.archive.records[i];
      } else {
        assert s1.archive.records[i].imageInfo == Some(InfoOf(f1));
      }
    }
  }

  /**
    The duplicate test matches names by containment: within five minutes, a
    stored name that occurs inside an earlier saved row's image info (for
    instance as part of a longer stored name) is skipped although it names a
    different file.
  */
  lemma ContainedNameIsSkipped(s: Server, u: nat, f1: UploadedFile, f2: UploadedFile, an1: Analysis, an2: Analysis,
                               now1: int, now2: int)
    requires u != 0
    requires NoEscapes(f1.storedName) && NoEscapes(f2.storedName)
    requires Contains(f1.storedName, f2.storedName)
    requires !HasRecentDuplicate(s.archive, u, f1.storedName, now1)
    requires now1 <= now2 < now1 + DuplicateWindowMs
    ensures var s1 := Analyze(s, Some(f1), Some(u), Some(an1), now1).0;
      Analyze(s1, Some(f2), Some(u), Some(an2), now2).0.archive == s1.archive
  {
    var s1 := Analyze(s, Some(f1), Some(u), Some(an1), now1).0;
    var n := |s.archive.records|;
    var row := s1.archive.records[n];
    var info := InfoOf(f1);
    ImageInfoMentionsStoredName(info);
    LowerKeepsContains(f1.storedName, f2.storedName);
    ContainsTrans(Lower(ImageInfoJson(info)), Lower(f1.storedName), Lower(f2.storedName));
    assert Blocks(row, u, f2.storedName, now2);
  }
}

=== FILE: wrappers.dfy ===
/** Failure-carrying datatypes shared by every module of the model. */
module Wrappers {

  /** A value that may be absent: a missing request field, a NULL column, an unknown index. */
  datatype Option<+T> = None | Some(value: T)

  /** The outcome of a request handler: a value or the error the handler answers with. */
  datatype Result<+R, +E> = Success(value: R) | Failure(error: E)
}
